=== FILE: README.md ===
# Model cache and gateway of the vLLM / LMDeploy Ollama-compatible servers, in Dafny

The repository runs two near-identical Python servers. They speak the Ollama HTTP API (`/api/generate`, `/api/chat`, `/api/status`, model load and unload) and delegate generation to vLLM or LMDeploy. This project models the parts with real logic:

- **Model cache** (`cache.dfy`, module `Cache`). Both backends' `ModelManager` keep three dictionaries keyed by model name (`_models`, `_model_configs`, `_last_used`), a set of per-name loading locks that only grows, and an availability flag.
  - The state is an immutable record. It also holds the dictionaries' insertion order, which is the order `keys()` and `items()` iterate in.
  - `Valid` is the invariant every operation keeps: one shared key set, each name listed once, and every loaded name has its lock.
  - `load_model` is split at the lock. `Admit` is the part before `async with`. `CompleteLoad` is the double-checked part inside it.
  - Single-flight is stated over any number of callers that all missed the cache and take the lock in turn (`Serialize`, `SingleFlight`).
  - Unloading and idle eviction are here too. `cleanup_unused_models` is two loops over the iteration order, as in the source.
- **Registry** (`registry.dfy`, module `Registry`). The LMDeploy `SUPPORTED_MODELS` table, the lookup with its synthesised fallback entry, the name listing, and the `LMDeployServerConfig` defaults.
- **Effective configuration** (`resolution.dfy`, module `Resolution`). Resolution has three tiers: per-call keyword, then registry entry, then global default.
  - LMDeploy builds a `TurbomindEngineConfig`. Its batch size has no registry tier.
  - vLLM builds `AsyncEngineArgs` and also spreads `**kwargs` into the same call.
- **LMDeploy manager** (`lmdeploy_manager.dfy`). Pipeline construction, unload with a best-effort `close()`, status, and first-result extraction. It also has the streaming bridge: `sync_stream`, then the producer that fills the queue, then the consumer loop over `chunk | done | error` messages.
- **vLLM manager** (`vllm_manager.dfy`). Engine construction, unload, status, extraction of the first finished output, and the streaming filter.
- **Gateway** (`gateway.dfy`). The servers' shared data logic:
  - chat-to-prompt flattening;
  - option mapping, integer and list fields only;
  - newline-delimited record framing of generate and chat streams;
  - the unload handler;
  - the shutdown handler.
- **Text** (`text.dfy`). Concatenation, `str.join`, and the `len(s.split())` word count.

Backend behaviour is passed in as parameters:
- **Construction.** A `Construction` value, or a builder function applied to the resolved configuration.
- **Inference results.** Sequences of texts, or an exception.
- **Time.** An integer tick for `time.time()`, and an elapsed-milliseconds value for durations.

Each manager operation is one atomic step, as it is between two awaits of the asyncio event loop. The vLLM server's `config.py` is not part of this model, so the vLLM manager takes its registry and global settings as parameters.

In these places the model follows the code, which may not be what the authors meant:
- A stream `error` message is logged and ends the stream quietly. It is not surfaced to the caller.
- Unloading an unknown model answers 500, not 404.
- The vLLM manager does not ask the engine to release anything on unload.
- An unavailable backend and a failed load both come back from `load_model` as `None`.

## Model

| member | source | states |
|---|---|---|
| Registry.Find | src/lmdeploy-server/app/config.py:84-95 | dict lookup: no answer exactly when no entry has the name; an answer is an entry declared under the name, and with distinct names it is that entry |
| Registry.GetModelConfig | src/lmdeploy-server/app/config.py:84-95 | a declared name gets its table entry, any other name the synthesised "general" entry; every answer carries a context length and a parallelism degree |
| Registry.Fallback | src/lmdeploy-server/app/config.py:89-94 | the synthesised entry's literal context length and parallelism equal the declared defaults; it has the "general" use case, and a description ending in the name |
| Registry.ListSupportedModels | src/lmdeploy-server/app/config.py:97-100 | exactly the table's names, in declaration order |
| Registry.SupportedNamesDistinct | src/lmdeploy-server/app/config.py:51-82 | no model name is declared twice |
| Registry.TableWellFormed | src/lmdeploy-server/app/config.py:51-82 | every declared entry has a positive context length and parallelism degree 1 |
| Registry.ListedIffDeclared | src/lmdeploy-server/app/config.py:84-100 | a name is listed exactly when its configuration is a declared one rather than the fallback |
| Registry.DefaultsConsistent | src/lmdeploy-server/app/config.py:15-40 | the port is Ollama's plus one; the default model is a declared one; the fallback entry's literal context length and parallelism equal the declared defaults |
| Resolution.ThreeTier | src/lmdeploy-server/app/model_manager.py:77-80 | override, else registry value, else global default, in that priority |
| Resolution.ResolveTurbomind | src/lmdeploy-server/app/model_manager.py:76-91 | session length and parallelism resolve through the three tiers; the batch size is the override or the global value, never the registry's; the cache fraction is the override or 0.8 |
| Resolution.TurbomindFieldsIndependent | src/lmdeploy-server/app/model_manager.py:76-91 | each of the four fields depends only on its own keyword (session length and parallelism also on their registry values); the batch size and cache fraction ignore the registry |
| Resolution.LmdeployGlobalTierUnreached | src/lmdeploy-server/app/model_manager.py:77-87 | with the LMDeploy registry, the global default never decides the session length or parallelism |
| Resolution.ResolveEngineArgs | src/vllm-server/model_manager.py:67-74 | argument building fails exactly when an override names an explicitly passed keyword; otherwise context length and parallelism come through the three tiers, sequence limit and memory fraction through override-or-global, and all overrides are passed on |
| Resolution.VllmOverrideTierUnreachable | src/vllm-server/model_manager.py:67-74 | whenever vLLM argument building succeeds, the resolved fields equal those resolved with no override at all |
| Resolution.VllmContextOverrideRejected | src/vllm-server/model_manager.py:67-74 | an override of `max_model_len` makes argument building fail |
| Resolution.ResolveEngineArgsIntended | src/vllm-server/model_manager.py:67-72 | overrides take priority over registry and global values for each of the four resolved fields, the other overrides are passed on once, and no explicit keyword is passed twice |
| Resolution.IntendedAgreesWithoutOverlap | src/vllm-server/model_manager.py:67-74 | without overlapping overrides the code as written and the intended resolution agree |
| Cache.Init | src/lmdeploy-server/app/model_manager.py:34-38 | a fresh manager is valid and empty, with no locks |
| Cache.Touch | src/lmdeploy-server/app/model_manager.py:51-54 | a hit changes only the name's last-used time |
| Cache.Insert | src/lmdeploy-server/app/model_manager.py:120-123 | a success inserts the name into all three dictionaries together, at the end of the iteration order |
| Cache.Admit | src/lmdeploy-server/app/model_manager.py:46-58 | unavailable exactly when the backend is missing; a hit exactly when available and cached, returning the stored handle and touching only its time; a miss adds the name's lock and nothing else |
| Cache.CompleteLoad | src/lmdeploy-server/app/model_manager.py:60-135 | the re-check returns the stored handle without construction; otherwise construction is attempted, a success is cached in all three dictionaries, and any failure returns no handle with the state unchanged |
| Cache.Load | src/lmdeploy-server/app/model_manager.py:43-135 | the four outcomes of `load_model`: unavailable with nothing changed, hit touching only the time, miss and success inserting into all three dictionaries, miss and failure leaving the dictionaries as they were; the lock set only grows |
| Cache.FailedLoadRetries | src/lmdeploy-server/app/model_manager.py:112-135 | after a failed load, the next load of the name constructs again |
| Cache.Serialize | src/lmdeploy-server/app/model_manager.py:54-64 | callers queued on the name's lock take it in turn, each getting one result; a caller gets no handle only after asking the backend to construct |
| Cache.QueuedCallersHit | src/lmdeploy-server/app/model_manager.py:60-64 | once the name is cached, every caller queued on its lock hits at the re-check with the cached handle |
| Cache.SingleFlight | src/lmdeploy-server/app/model_manager.py:56-126 | when the first caller through the lock constructs successfully, there is exactly one construction and every queued caller gets that handle |
| Cache.Without | src/lmdeploy-server/app/model_manager.py:149-151 | deletion from the iteration order removes the name and keeps the others, without repeats |
| Cache.Remove | src/lmdeploy-server/app/model_manager.py:137-154 | an absent name answers false with no change; a present name is deleted from all three dictionaries together and answers true |
| Cache.UnloadThenLoadConstructs | src/lmdeploy-server/app/model_manager.py:137-154 | after an unload, loading the name constructs afresh |
| Cache.DistinctCardinality | src/lmdeploy-server/app/model_manager.py:310-312 | a list without repeats has as many distinct names as entries, so the loaded count equals the listed count |
| Cache.ListLoaded | src/lmdeploy-server/app/model_manager.py:310-312 | every loaded name exactly once, as many names as loaded models |
| Cache.NothingLoaded | src/lmdeploy-server/app/model_manager.py:310-312 | with no loaded name, all three dictionaries and the order are empty |
| Cache.Info | src/lmdeploy-server/app/model_manager.py:314-323 | a record exactly for loaded names, carrying the stored configuration and last-used time |
| Cache.CollectIdle | src/lmdeploy-server/app/model_manager.py:336-341 | collects, without repeats, exactly the names idle strictly longer than the limit |
| Cache.RemoveAll | src/lmdeploy-server/app/model_manager.py:343-345 | unloads exactly the listed names and leaves the other entries as they were |
| Cache.EvictIdle | src/lmdeploy-server/app/model_manager.py:334-345 | exactly the entries idle strictly longer than the limit are unloaded; the others keep handle, configuration and time |
| Cache.CleanupUnusedModels | src/lmdeploy-server/app/model_manager.py:334-345 | exactly the entries whose idle time strictly exceeds the limit are removed, the limit being an hour when none is given; the rest keep handle, configuration and time |
| LmdeployManager.LoadModel | src/lmdeploy-server/app/model_manager.py:43-135 | unavailable returns nothing with no change; a hit returns the stored pipeline touching only its time; a miss always calls `pipeline(...)` under the name's lock; that succeeds exactly when the pipeline built from the resolved engine configuration is a pipeline, and then that very pipeline is returned and the name enters all three dictionaries with it and its registry entry while every other entry stays as it was; a failure leaves the dictionaries unchanged |
| LmdeployManager.UnloadModel | src/lmdeploy-server/app/model_manager.py:137-154 | a present name leaves all three dictionaries whatever `close()` does; an absent one answers false with no change; other names keep their entries, and the locks and availability are unchanged |
| LmdeployManager.CloseFailureHarmless | src/lmdeploy-server/app/model_manager.py:141-151 | an unload where `close()` raises leaves the same state as one where it returns |
| LmdeployManager.GetSystemStatus | src/lmdeploy-server/app/model_manager.py:325-332 | the loaded count equals the number of listed names and both describe the loaded set; the supported list is the registry's |
| LmdeployManager.FirstResult | src/lmdeploy-server/app/model_manager.py:193-211 | a text exactly when inference returned a non-empty result list, and then the first result's text |
| LmdeployManager.GenerateText | src/lmdeploy-server/app/model_manager.py:156-211 | unavailable gives no text with no change; the cache moves exactly as `load_model` moves it; with a loaded pipeline the text is exactly its first result's text, and a failed load gives no text |
| LmdeployManager.SyncStream | src/lmdeploy-server/app/model_manager.py:247-263 | at most one fragment per engine step; for single-result steps, exactly their texts in order |
| LmdeployManager.RunStream | src/lmdeploy-server/app/model_manager.py:273-280 | every chunk in order, then one marker: `error` exactly when iterating raised, `done` otherwise (`sync_stream` catches every exception, so as written the marker is `done`) |
| LmdeployManager.ConsumeQueue | src/lmdeploy-server/app/model_manager.py:286-299 | the yielded fragments are the payloads of the longest chunk-only prefix of the queue; consumption stops at the first `done` or `error` |
| LmdeployManager.QueueRoundTrip | src/lmdeploy-server/app/model_manager.py:273-299 | the consumer yields exactly the chunks the producer queued, whether it finished or failed, and does not raise |
| LmdeployManager.ConsumeStopsAtMarker | src/lmdeploy-server/app/model_manager.py:293-299 | nothing queued after the first marker is yielded |
| LmdeployManager.ConsumeAppendOnly | src/lmdeploy-server/app/model_manager.py:286-299 | fragments already yielded are never revoked: a prefix of the queue yields a prefix of the output |
| LmdeployManager.StreamBridge | src/lmdeploy-server/app/model_manager.py:243-299 | the streaming generator yields exactly what `sync_stream` produced |
| VllmManager.Construct | src/vllm-server/model_manager.py:62-89 | an overlapping override always raises; without one, an engine is obtained exactly when `from_engine_args` on the resolved arguments returns one, and it is that engine |
| VllmManager.LoadModel | src/vllm-server/model_manager.py:37-89 | unavailable returns nothing with no change; a hit returns the same engine touching only its time; a miss always tries to build under the name's lock; without overlapping overrides it succeeds exactly when the engine builds, returns that engine and adds the name to all three dictionaries with its registry entry, nothing else changing; any overlapping override makes every miss fail with the dictionaries unchanged |
| VllmManager.UnloadModel | src/vllm-server/model_manager.py:91-100 | an absent name answers false with no change; a present name leaves all three dictionaries and nothing else changes |
| VllmManager.GetSystemStatus | src/vllm-server/model_manager.py:196-203 | the loaded count equals the number of listed names and both describe the loaded set; the supported list is the vLLM registry's, given as a parameter |
| VllmManager.FirstFinished | src/vllm-server/model_manager.py:126-135 | the first output of the first finished request output; nothing if iteration raises first, that output has no completions, or nothing finishes |
| VllmManager.FirstFinishedIgnoresRest | src/vllm-server/model_manager.py:128-131 | events after the first finished output (or the first exception) never change the result |
| VllmManager.NonEmpty | src/vllm-server/model_manager.py:168-170 | exactly the non-empty texts, none empty, at most as many as given |
| VllmManager.NonEmptyAppend | src/vllm-server/model_manager.py:168-170 | filtering commutes with concatenation, so the non-empty texts are yielded in order and as often as they occur |
| VllmManager.StreamFilter | src/vllm-server/model_manager.py:164-173 | every yielded text is non-empty |
| VllmManager.FilterStopsAtFinished | src/vllm-server/model_manager.py:172-173 | nothing is yielded after the first finished output |
| VllmManager.FilterAppend | src/vllm-server/model_manager.py:165-170 | before a finished output, texts are yielded output by output, in order |
| VllmManager.FilterSingle | src/vllm-server/model_manager.py:166-170 | one output contributes exactly its non-empty texts |
| Text.Concat | src/lmdeploy-server/app/server.py:236-238 | the accumulated response starts with the first fragment, ends with the last, and is empty when every fragment is |
| Text.ConcatAppend | src/lmdeploy-server/app/server.py:236-238 | accumulating fragments distributes over appending fragment lists |
| Text.Join | src/lmdeploy-server/app/server.py:132 | `sep.join(parts)` starts with the first part, ends with the last, and is at least as long as the separators between them |
| Text.JoinAppend | src/lmdeploy-server/app/server.py:132 | joining a concatenation of two non-empty lists puts exactly one separator between the two joins, so every gap between neighbouring parts holds the separator |
| Text.JoinPair | src/lmdeploy-server/app/server.py:132 | joining two parts puts the separator between them |
| Text.WordCount | src/lmdeploy-server/app/server.py:256 | no words exactly when every character is a separator; at most one word per two characters, rounded up |
| Text.WordCountAppend | src/lmdeploy-server/app/server.py:256 | the word count of a concatenation is the sum of the counts, minus one when the boundary splits a word |
| Text.SolidWordCount | src/lmdeploy-server/app/server.py:256 | a non-empty run without separators is one word |
| Gateway.Line | src/lmdeploy-server/app/server.py:125-130 | the line ends with the content and its first letter names the role |
| Gateway.LineInjective | src/lmdeploy-server/app/server.py:125-130 | distinct messages give distinct lines |
| Gateway.Kept | src/lmdeploy-server/app/server.py:124-130 | the kept messages are exactly those with a known role |
| Gateway.KeptIdempotent | src/lmdeploy-server/app/server.py:124-130 | filtering the kept messages again changes nothing |
| Gateway.KeptAppend | src/lmdeploy-server/app/server.py:124-130 | filtering commutes with concatenation, so kept messages keep their order and multiplicity |
| Gateway.PromptParts | src/lmdeploy-server/app/server.py:120-130 | one prefixed line per kept message, in message order |
| Gateway.FormatPrompt | src/lmdeploy-server/app/server.py:120-132 | every prompt ends with `"\nAssistant: "` |
| Gateway.EmptyConversationPrompt | src/lmdeploy-server/app/server.py:132 | an empty message list yields exactly `"\nAssistant: "` |
| Gateway.UnknownRolesDropped | src/lmdeploy-server/app/server.py:124-130 | messages with other roles do not affect the prompt |
| Gateway.AppendMessage | src/lmdeploy-server/app/server.py:124-130 | a further known message adds its line after the earlier ones |
| Gateway.ExampleParts | src/lmdeploy-server/app/server.py:120-130 | a system and a user message give the lines "System: be terse" and "User: hi" |
| Gateway.SystemUserExample | src/lmdeploy-server/app/server.py:120-132 | [system "be terse", user "hi"] gives "System: be terse\nUser: hi\nAssistant: " |
| Gateway.CreateGenerationConfig | src/lmdeploy-server/app/server.py:104-117 | no configuration when unavailable; `None` options read as `{}`; `top_k` defaults to 40, `num_predict` maps to max new tokens with default 512, `stop` to stop words with default [] |
| Gateway.CreateSamplingParams | src/vllm-server/server.py:99-110 | nothing when unavailable; `None` options raise; otherwise `top_k` defaults to 40, `num_predict` maps to max tokens with default 512, `stop` defaults to [] |
| Gateway.BackendsAgreeOnOptions | src/vllm-server/server.py:99-110 | given options, both servers map the integer and list fields alike; only LMDeploy tolerates `None` options |
| Gateway.ChunkRecords | src/lmdeploy-server/app/server.py:237-246 | one `done=false` record per fragment, in order, carrying the fragment |
| Gateway.GenerateStreamRecords | src/lmdeploy-server/app/server.py:216-270 | no stream gives one `done=true` record with empty response and zero duration; otherwise one `done=false` record per fragment in order, then exactly one `done=true` record carrying the word count of the concatenation, or the error text after a failure |
| Gateway.ReassembleChunks | src/lmdeploy-server/app/server.py:236-246 | the intermediate records reassemble to the concatenated fragments |
| Gateway.ReassembleRoundTrip | src/lmdeploy-server/app/server.py:236-270 | a client reassembling the responses of the intermediate records gets exactly the concatenated fragments, with or without a failure |
| Gateway.EvalCountOverConcatenation | src/lmdeploy-server/app/server.py:236-258 | fragments "Hel" and "lo" are counted as one word |
| Gateway.ChatStreamRecords | src/vllm-server/server.py:315-369 | the chat stream has the generate stream's records, each wrapped in an assistant message; each record keeps its `done` flag, word count and both durations; the final record is `done=true`, with empty content unless a failure occurred |
| Gateway.UnloadEndpoint | src/lmdeploy-server/app/server.py:397-410 | a loaded name is unloaded with a success message, leaving every other entry, the locks and availability as they were; an unknown name answers 500 with no change |
| Gateway.UnknownUnloadIs500 | src/lmdeploy-server/app/server.py:397-410 | unloading a name never loaded answers 500 |
| Gateway.UnloadEndpointIntended | src/vllm-server/server.py:396-409 | with the 404 not re-wrapped, an unknown name answers 404 |
| Gateway.UnloadHandlersDiffer | src/vllm-server/server.py:396-409 | both handlers leave the same state and differ in their answer exactly for names that are not loaded |
| Gateway.Shutdown | src/vllm-server/server.py:428-437 | unloading every listed name leaves all dictionaries empty, with locks and availability untouched |

## Left out

- Threads, `queue.Queue`, `run_in_executor`, `join(timeout=1.0)` and real interleavings of asyncio tasks. Each manager step is atomic. Concurrent callers appear only as the queue of callers behind one name's lock.
- Construction and behaviour of `pipeline`, `TurbomindEngineConfig`, `AsyncLLMEngine`, `SamplingParams` and `GenerationConfig`. They are foreign library calls and become parameters.
- The `TurbomindEngineConfig is None` and `pipeline is None` guards inside `load_model`. They can only fire when the library failed to import, and that case is already answered by the availability check.
- Floating-point values. These are temperature, top_p, the default `GenerationConfig(temperature=0.7, top_p=0.9, max_new_tokens=512)` of `generate_text`, and memory fractions. Memory fractions are carried as exact reals and never computed with.
- Durations. `time.time()` becomes an integer tick, and `total_duration` becomes an elapsed-milliseconds parameter.
- The `hasattr(result, "text")` / `str(result)` conversions of LMDeploy results. Result texts are given as strings.
- HTTP routing, JSON serialisation, pydantic validation and `datetime.isoformat()`.
- The `/`, `/api/tags` and `/api/models/load` routes, the non-streaming generate and chat bodies, and the startup preload. These are thin adapters over the members above. The `/api/tags` digest uses the per-process `hash(model_name)`.
- Environment-variable loading of the settings and all logging.
- vLLM's `list_loaded_models`, `get_model_info` and `cleanup_unused_models` (src/vllm-server/model_manager.py:181-216). They are line-for-line the LMDeploy ones and modelled once in `Cache`. Both managers' `get_system_status` share the record `Cache.SystemStatus`. The vLLM server's `format_prompt_from_messages`, `generate_stream` and `chat_stream` are likewise identical to the LMDeploy server's and modelled once in `Gateway`.
- Option values other than integers and lists of strings. An option sent as an explicit `null` is also out of scope: `Options` uses `None` for an absent key, so the model gives the default where Python's `options.get(...)` would pass `None` on.
- Unicode whitespace: `Text.WordCount` counts ASCII whitespace only. Python's `str.split()` also splits on Unicode spaces, which are out of scope.
- LmdeployManager.SyncStream: its contract pins the output only when every engine step returns one result. The general case is stated by its definition and used through `StreamBridge`.
- VllmManager.StreamFilter: its own contract only says that no empty text is yielded. Ordering and the stop at the first finished output are stated by `FilterAppend`, `FilterSingle` with `NonEmptyAppend`, and `FilterStopsAtFinished`.
- A vLLM server without the vLLM library installed. On Python 3.13 and earlier the return annotation `Optional[AsyncLLMEngine]` at src/vllm-server/model_manager.py:37 is evaluated when the module is imported, and the name is undefined when the import fails. So the module cannot load (not executed). The `!s.available` branches of `VllmManager.LoadModel` and `Gateway.CreateSamplingParams` model the guard as written anyway.
- The `error` marker of the LMDeploy stream queue cannot occur as written: `sync_stream` catches every exception. `LmdeployManager.RunStream` keeps the `failure` parameter for a producer that raises, and the bridge lemmas hold either way.

## Findings

| source | as written | input that shows it | evidently intended | confidence | as-written member | corrected member |
|---|---|---|---|---|---|---|
| src/vllm-server/model_manager.py:67-74 | `AsyncEngineArgs` gets `max_model_len=...` (and four other keywords) explicitly and again through `**kwargs`, so the call raises a duplicate-keyword `TypeError` and the load returns `None` | `load_model(name, max_model_len=4096)` on a name not yet loaded | the override takes priority over the registry and global values, as the `kwargs.get(...)` tiers say | high, not executed | Resolution.VllmContextOverrideRejected | Resolution.ResolveEngineArgsIntended |
| src/lmdeploy-server/app/server.py:397-410 | the `HTTPException(404)` raised inside `try` is caught by `except Exception` and re-raised as 500 (same in src/vllm-server/server.py:396-409) | `DELETE /api/models/unload/m` when `m` is not loaded | answer 404 for a model that is not loaded | high, not executed | Gateway.UnknownUnloadIs500 | Gateway.UnloadEndpointIntended |

=== FILE: cache.dfy ===
/** The model cache both managers keep: three dictionaries keyed by model name, the per-name
    loading locks, and the backend availability flag. Every operation is one atomic step, as it is
    between two awaits of the asyncio event loop. */
module Cache {
  import opened Wrappers
  import Registry

  /** An opaque reference to a constructed engine or pipeline. */
  datatype Handle = Handle(id: nat)

  /** The manager's fields. `order` is the insertion order of the three dictionaries (they are
      always inserted into and deleted from together), which is the order `keys()` and `items()`
      iterate in. Time stamps are ticks of `time.time()`. */
  datatype State = State(
    available: bool,
    models: map<string, Handle>,
    configs: map<string, Registry.ModelSpec>,
    lastUsed: map<string, int>,
    locks: set<string>,
    order: seq<string>)

  predicate Distinct(xs: seq<string>) {
    forall i, j :: 0 <= i < j < |xs| ==> xs[i] != xs[j]
  }

  /** The three dictionaries share one key set, listed once each by `order`, and every loaded
      name has had its loading lock created. */
  ghost predicate Valid(s: State) {
    && s.configs.Keys == s.models.Keys
    && s.lastUsed.Keys == s.models.Keys
    && s.models.Keys <= s.locks
    && Distinct(s.order)
    && (forall k :: k in s.models <==> k in s.order)
  }

  /** `ModelManager.__init__`. */
  function Init(available: bool): (s: State)
    ensures Valid(s) && s.available == available
    ensures s.models == map[] && s.locks == {}
  {
    State(available, map[], map[], map[], {}, [])
  }

  /** Only `_last_used[name]` moved, to `now`. */
  predicate OnlyTouched(s: State, r: State, name: string, now: int) {
    && r.models == s.models && r.configs == s.configs && r.order == s.order
    && r.locks == s.locks && r.available == s.available
    && r.lastUsed == s.lastUsed[name := now]
  }

  /** The three dictionaries (and their order) are as they were. */
  predicate SameEntries(s: State, r: State) {
    r.models == s.models && r.configs == s.configs && r.lastUsed == s.lastUsed && r.order == s.order
    && r.available == s.available
  }

  /** `name` went into all three dictionaries together, at the end of the iteration order. */
  predicate Added(s: State, r: State, name: string, h: Handle, spec: Registry.ModelSpec, now: int) {
    && r.models == s.models[name := h] && r.configs == s.configs[name := spec]
    && r.lastUsed == s.lastUsed[name := now] && r.order == s.order + [name]
    && r.locks == s.locks && r.available == s.available
  }

  /** A cache hit refreshes the time stamp. */
  function Touch(s: State, name: string, now: int): (r: State)
    requires Valid(s) && name in s.models
    ensures Valid(r) && OnlyTouched(s, r, name, now)
  {
    s.(lastUsed := s.lastUsed[name := now])
  }

  /** The three insertions after a successful construction. */
  function Insert(s: State, name: string, h: Handle, spec: Registry.ModelSpec, now: int): (r: State)
    requires Valid(s) && name !in s.models && name in s.locks
    ensures Valid(r) && Added(s, r, name, h, spec, now)
  {
    s.(models := s.models[name := h], configs := s.configs[name := spec],
       lastUsed := s.lastUsed[name := now], order := s.order + [name])
  }

  // ---------------------------------------------------------------- load_model

  /** What happened before the loading lock: backend missing, cache hit, or a miss that created
      (or reused) the name's lock. */
  datatype Admission = Unavailable | Hit(state: State, handle: Handle) | Miss(state: State)

  /** The part of `load_model` before `async with self._loading_locks[name]`. */
  function Admit(s: State, name: string, now: int): (a: Admission)
    requires Valid(s)
    ensures a.Unavailable? <==> !s.available
    ensures a.Hit? <==> s.available && name in s.models
    ensures a.Hit? ==> a.handle == s.models[name] && OnlyTouched(s, a.state, name, now)
    ensures a.Miss? ==> Valid(a.state) && SameEntries(s, a.state) && a.state.locks == s.locks + {name}
  {
    if !s.available then Unavailable
    else if name in s.models then Hit(Touch(s, name, now), s.models[name])
    else Miss(s.(locks := s.locks + {name}))
  }

  /** The backend's answer to one construction attempt: a handle, `None`, or an exception. */
  datatype Construction = Built(handle: Handle) | NoHandle | Raised(message: string)

  /** The result of `load_model`: the new state, the returned handle (`None` on any failure), and
      whether the backend was asked to construct an instance. */
  datatype LoadResult = LoadResult(state: State, handle: Option<Handle>, constructed: bool)

  /** The part of `load_model` inside the lock: re-check the cache, otherwise consult the
      construction outcome and cache it on success. */
  function CompleteLoad(s: State, name: string, now: int, spec: Registry.ModelSpec, outcome: Construction)
    : (r: LoadResult)
    requires Valid(s) && name in s.locks
    ensures Valid(r.state) && r.state.locks == s.locks
    ensures name in s.models ==>
      !r.constructed && r.handle == Some(s.models[name]) && OnlyTouched(s, r.state, name, now)
    ensures name !in s.models ==> r.constructed && (r.handle.Some? <==> outcome.Built?)
    ensures name !in s.models && outcome.Built? ==>
      r.handle == Some(outcome.handle) && Added(s, r.state, name, outcome.handle, spec, now)
    ensures r.handle.None? ==> r.state == s
  {
    if name in s.models then
      LoadResult(Touch(s, name, now), Some(s.models[name]), false)
    else
      match outcome
      case Built(h) => LoadResult(Insert(s, name, h, spec, now), Some(h), true)
      case _ => LoadResult(s, None, true)
  }

  /** `load_model` run without interleaving: admission, then the locked section. */
  function Load(s: State, name: string, now: int, spec: Registry.ModelSpec, outcome: Construction)
    : (r: LoadResult)
    requires Valid(s)
    ensures Valid(r.state) && s.locks <= r.state.locks
    ensures !s.available ==> r == LoadResult(s, None, false)
    ensures s.available && name in s.models ==>
      !r.constructed && r.handle == Some(s.models[name]) && OnlyTouched(s, r.state, name, now)
    ensures s.available && name !in s.models ==>
      r.constructed && r.state.locks == s.locks + {name} && (r.handle.Some? <==> outcome.Built?)
    ensures r.constructed && r.handle.None? ==> SameEntries(s, r.state)
    ensures r.constructed && r.handle.Some? ==>
      r.handle == Some(outcome.handle) && Added(s.(locks := s.locks + {name}), r.state, name, outcome.handle, spec, now)
  {
    match Admit(s, name, now)
    case Unavailable => LoadResult(s, None, false)
    case Hit(st, h) => LoadResult(st, Some(h), false)
    case Miss(st) => CompleteLoad(st, name, now, spec, outcome)
  }

  /** A failed load leaves nothing behind, so the next load of that name constructs afresh. */
  lemma FailedLoadRetries(s: State, name: string, now1: int, now2: int, spec: Registry.ModelSpec,
                          first: Construction, second: Construction)
    requires Valid(s) && s.available && name !in s.models && !first.Built?
    ensures var r1 := Load(s, name, now1, spec, first);
            r1.handle.None? && name !in r1.state.models && Load(r1.state, name, now2, spec, second).constructed
  {
  }

  /** Callers that all missed the cache and now take the name's lock one after another; each
      brings the time it reaches the re-check and the outcome its construction would have. */
  function Serialize(s: State, name: string, spec: Registry.ModelSpec, calls: seq<(int, Construction)>)
    : (rs: seq<LoadResult>)
    requires Valid(s) && name in s.locks
    ensures |rs| == |calls|
    // A caller comes away empty-handed only after asking the backend itself.
    ensures forall i :: 0 <= i < |rs| && rs[i].handle.None? ==> rs[i].constructed
    decreases |calls|
  {
    if |calls| == 0 then []
    else
      var first := CompleteLoad(s, name, calls[0].0, spec, calls[0].1);
      [first] + Serialize(first.state, name, spec, calls[1..])
  }

  /** How many of the queued callers asked the backend to construct. */
  function Constructions(rs: seq<LoadResult>): nat {
    if |rs| == 0 then 0 else (if rs[0].constructed then 1 else 0) + Constructions(rs[1..])
  }

  /** Once the name is cached, every queued caller hits at the re-check and gets the cached handle. */
  lemma {:induction false} QueuedCallersHit(s: State, name: string, spec: Registry.ModelSpec,
                                           calls: seq<(int, Construction)>)
    requires Valid(s) && name in s.locks && name in s.models
    ensures var rs := Serialize(s, name, spec, calls);
            Constructions(rs) == 0 && forall i :: 0 <= i < |rs| ==> rs[i].handle == Some(s.models[name])
    decreases |calls|
  {
    if |calls| > 0 {
      var first := CompleteLoad(s, name, calls[0].0, spec, calls[0].1);
      QueuedCallersHit(first.state, name, spec, calls[1..]);
    }
  }

  /** Single-flight: when the first caller through the lock constructs successfully, that is the
      only construction, and every caller observes the same handle. */
  lemma SingleFlight(s: State, name: string, spec: Registry.ModelSpec, calls: seq<(int, Construction)>)
    requires Valid(s) && name in s.locks && name !in s.models
    requires |calls| > 0 && calls[0].1.Built?
    ensures var rs := Serialize(s, name, spec, calls);
            Constructions(rs) == 1 && forall i :: 0 <= i < |rs| ==> rs[i].handle == Some(calls[0].1.handle)
  {
    var first := CompleteLoad(s, name, calls[0].0, spec, calls[0].1);
    QueuedCallersHit(first.state, name, spec, calls[1..]);
  }

  // ---------------------------------------------------------------- unload_model

  /** `order` without `name`. */
  function Without(xs: seq<string>, name: string): (r: seq<string>)
    ensures forall k :: k in r <==> k in xs && k != name
    ensures Distinct(xs) ==> Distinct(r)
  {
    if |xs| == 0 then []
    else if xs[0] == name then Without(xs[1..], name)
    else
      var rest := Without(xs[1..], name);
      assert Distinct(xs) ==> xs[0] !in xs[1..];
      [xs[0]] + rest
  }

  /** The state after `unload_model`, and its boolean answer. */
  datatype Unloaded = Unloaded(state: State, removed: bool)

  /** `unload_model`: an absent name answers false and changes nothing; a present name is deleted
      from all three dictionaries, and only it. */
  function Remove(s: State, name: string): (u: Unloaded)
    requires Valid(s)
    ensures Valid(u.state)
    ensures u.removed <==> name in s.models
    ensures !u.removed ==> u.state == s
    ensures u.removed ==>
      && u.state.models == s.models - {name} && u.state.configs == s.configs - {name}
      && u.state.lastUsed == s.lastUsed - {name} && u.state.locks == s.locks && u.state.available == s.available
  {
    if name in s.models then
      Unloaded(s.(models := s.models - {name}, configs := s.configs - {name},
                  lastUsed := s.lastUsed - {name}, order := Without(s.order, name)), true)
    else
      Unloaded(s, false)
  }

  /** After an unload, the next load of that name constructs afresh. */
  lemma UnloadThenLoadConstructs(s: State, name: string, now: int, spec: Registry.ModelSpec, outcome: Construction)
    requires Valid(s) && s.available && name in s.models
    ensures Load(Remove(s, name).state, name, now, spec, outcome).constructed
  {
  }

  // ---------------------------------------------------------------- queries

  /** A list without repetitions has as many distinct elements as entries. */
  lemma {:induction false} DistinctCardinality(xs: seq<string>)
    requires Distinct(xs)
    ensures |set x | x in xs| == |xs|
  {
    if |xs| > 0 {
      var tail := xs[1..];
      assert Distinct(tail);
      DistinctCardinality(tail);
      assert (set x | x in xs) == (set x | x in tail) + {xs[0]};
      assert xs[0] !in tail;
    }
  }

  /** `list_loaded_models`: every loaded name exactly once. */
  function ListLoaded(s: State): (r: seq<string>)
    requires Valid(s)
    ensures Distinct(r)
    ensures forall k :: k in r <==> k in s.models
    ensures |r| == |s.models|
  {
    DistinctCardinality(s.order);
    assert (set x | x in s.order) == s.models.Keys;
    s.order
  }

  /** A valid state without loaded names has empty dictionaries and an empty order. */
  lemma NothingLoaded(s: State)
    requires Valid(s) && forall k :: k !in s.models
    ensures s.models == map[] && s.configs == map[] && s.lastUsed == map[] && s.order == []
  {
    assert s.models.Keys == {};
    DistinctCardinality(s.order);
    assert (set x | x in s.order) == {};
  }

  /** The record `get_model_info` returns. */
  datatype ModelInfo = ModelInfo(name: string, config: Registry.ModelSpec, lastUsed: int, loaded: bool)

  /** `get_model_info`: a record exactly for the loaded names. */
  function Info(s: State, name: string): (r: Option<ModelInfo>)
    requires Valid(s)
    ensures r.Some? <==> name in s.models
    ensures r.Some? ==> r.value.name == name && r.value.loaded &&
                        r.value.config == s.configs[name] && r.value.lastUsed == s.lastUsed[name]
  {
    if name in s.configs then Some(ModelInfo(name, s.configs[name], s.lastUsed[name], true)) else None
  }

  /** The record `get_system_status` returns: the backend flag (`lmdeploy_available` or
      `vllm_available`), the loaded count, the loaded names and the registry's names. */
  datatype SystemStatus = SystemStatus(available: bool, loadedCount: nat, modelList: seq<string>,
                                       supported: seq<string>)

  // ---------------------------------------------------------------- cleanup_unused_models

  /** The default `max_idle_time` of `cleanup_unused_models`, in seconds, used when the caller
      passes none. */
  const DefaultMaxIdleTime: int := 3600

  /** The entry for `name` has been idle for strictly longer than `maxIdle` at time `now`. */
  predicate Idle(s: State, name: string, now: int, maxIdle: int)
    requires name in s.lastUsed
  {
    now - s.lastUsed[name] > maxIdle
  }

  /** The first loop of `cleanup_unused_models`: the idle names, in iteration order. */
  method CollectIdle(s: State, now: int, maxIdle: int) returns (names: seq<string>)
    requires Valid(s)
    ensures Distinct(names)
    ensures forall k :: k in names <==> k in s.models && Idle(s, k, now, maxIdle)
  {
    names := [];
    var i := 0;
    while i < |s.order|
      invariant 0 <= i <= |s.order|
      invariant Distinct(names)
      invariant forall k :: k in names <==> k in s.order[..i] && k in s.lastUsed && Idle(s, k, now, maxIdle)
    {
      var name := s.order[i];
      assert s.order[..i + 1] == s.order[..i] + [name];
      assert name !in s.order[..i] by {
        forall j | 0 <= j < i ensures s.order[..i][j] != name { assert s.order[j] != s.order[i]; }
      }
      if now - s.lastUsed[name] > maxIdle {
        names := names + [name];
      }
      i := i + 1;
    }
    assert s.order[..i] == s.order;
  }

  /** The second loop of `cleanup_unused_models`: unload every listed name. */
  method RemoveAll(s: State, names: seq<string>) returns (r: State)
    requires Valid(s)
    ensures Valid(r) && r.locks == s.locks && r.available == s.available
    ensures forall k :: k in r.models <==> k in s.models && k !in names
    ensures forall k :: k in r.models ==>
      r.models[k] == s.models[k] && r.configs[k] == s.configs[k] && r.lastUsed[k] == s.lastUsed[k]
  {
    r := s;
    var j := 0;
    while j < |names|
      invariant 0 <= j <= |names|
      invariant Valid(r) && r.locks == s.locks && r.available == s.available
      invariant forall k :: k in r.models <==> k in s.models && k !in names[..j]
      invariant forall k :: k in r.models ==>
        r.models[k] == s.models[k] && r.configs[k] == s.configs[k] && r.lastUsed[k] == s.lastUsed[k]
    {
      assert names[..j + 1] == names[..j] + [names[j]];
      r := Remove(r, names[j]).state;
      j := j + 1;
    }
    assert names[..j] == names;
  }

  /** `cleanup_unused_models`: exactly the idle entries go; the others keep their handle,
      configuration and time stamp. */
  method EvictIdle(s: State, now: int, maxIdle: int) returns (r: State, evicted: seq<string>)
    requires Valid(s)
    ensures Valid(r) && r.locks == s.locks && r.available == s.available
    ensures forall k :: k in r.models <==> k in s.models && !Idle(s, k, now, maxIdle)
    ensures forall k :: k in r.models ==>
      r.models[k] == s.models[k] && r.configs[k] == s.configs[k] && r.lastUsed[k] == s.lastUsed[k]
    ensures Distinct(evicted)
    ensures forall k :: k in evicted <==> k in s.models && Idle(s, k, now, maxIdle)
  {
    evicted := CollectIdle(s, now, maxIdle);
    r := RemoveAll(s, evicted);
  }

  /** `cleanup_unused_models(max_idle_time)` at time `now`, the same in both managers; `None`
      stands for the argument left out, which means an hour. */
  method CleanupUnusedModels(s: State, now: int, maxIdle: Option<int>) returns (r: State)
    requires Valid(s)
    ensures Valid(r) && r.locks == s.locks && r.available == s.available
    ensures maxIdle.Some? ==> forall k :: k in r.models <==> k in s.models && now - s.lastUsed[k] <= maxIdle.value
    ensures maxIdle.None? ==> forall k :: k in r.models <==> k in s.models && now - s.lastUsed[k] <= 3600
    ensures forall k :: k in r.models ==>
      r.models[k] == s.models[k] && r.configs[k] == s.configs[k] && r.lastUsed[k] == s.lastUsed[k]
  {
    var evicted;
    r, evicted := EvictIdle(s, now, maxIdle.GetOr(DefaultMaxIdleTime));
  }
}

=== FILE: gateway.dfy ===
/** The Ollama-compatible HTTP layer of both servers, reduced to its data logic: chat flattening,
    option mapping, newline-delimited record framing of streams, and the unload and shutdown
    handlers. The two servers share this code line for line except where noted. */
module Gateway {
  import opened Wrappers
  import Text
  import Cache

  // ---------------------------------------------------------------- format_prompt_from_messages

  datatype ChatMessage = ChatMessage(role: string, content: string)

  predicate KnownRole(role: string) {
    role == "system" || role == "user" || role == "assistant"
  }

  /** The prompt line of one message with a known role. */
  function Line(m: ChatMessage): (r: string)
    requires KnownRole(m.role)
    ensures |m.content| < |r| && r[|r| - |m.content|..] == m.content
    ensures r[0] == (if m.role == "system" then 'S' else if m.role == "user" then 'U' else 'A')
  {
    if m.role == "system" then "System: " + m.content
    else if m.role == "user" then "User: " + m.content
    else "Assistant: " + m.content
  }

  /** The messages whose role is known, in their original order. */
  function Kept(msgs: seq<ChatMessage>): (r: seq<ChatMessage>)
    ensures forall i :: 0 <= i < |r| ==> KnownRole(r[i].role)
    ensures forall m :: m in r <==> m in msgs && KnownRole(m.role)
    ensures |r| <= |msgs|
  {
    if |msgs| == 0 then []
    else
      var last := msgs[|msgs| - 1];
      assert msgs == msgs[..|msgs| - 1] + [last];
      Kept(msgs[..|msgs| - 1]) + (if KnownRole(last.role) then [last] else [])
  }

  /** Distinct messages give distinct lines: the label tells the role and the rest is the content. */
  lemma LineInjective(m1: ChatMessage, m2: ChatMessage)
    requires KnownRole(m1.role) && KnownRole(m2.role)
    ensures Line(m1) == Line(m2) ==> m1 == m2
  {
    if Line(m1) == Line(m2) {
      assert m1.role == m2.role;
      var l := Line(m1);
      assert |l| - |m1.content| == |l| - |m2.content|;
    }
  }

  /** Filtering commutes with concatenation, so kept messages keep their order and multiplicity. */
  lemma {:induction false} KeptAppend(a: seq<ChatMessage>, b: seq<ChatMessage>)
    ensures Kept(a + b) == Kept(a) + Kept(b)
  {
    if |b| == 0 {
      assert a + b == a;
    } else {
      var b', last := b[..|b| - 1], b[|b| - 1];
      assert (a + b)[..|a + b| - 1] == a + b' && (a + b)[|a + b| - 1] == last;
      KeptAppend(a, b');
    }
  }

  /** Filtering twice keeps the same messages. */
  lemma {:induction false} KeptIdempotent(msgs: seq<ChatMessage>)
    ensures Kept(Kept(msgs)) == Kept(msgs)
  {
    if |msgs| > 0 {
      var init := msgs[..|msgs| - 1];
      var last := msgs[|msgs| - 1];
      KeptIdempotent(init);
      var k := Kept(msgs);
      if KnownRole(last.role) {
        assert k[..|k| - 1] == Kept(init);
      } else {
        assert k == Kept(init);
      }
    }
  }

  /** `prompt_parts`: one line per kept message, in message order. */
  function PromptParts(msgs: seq<ChatMessage>): (parts: seq<string>)
    ensures |parts| == |Kept(msgs)|
    ensures forall i :: 0 <= i < |parts| ==> parts[i] == Line(Kept(msgs)[i])
  {
    if |msgs| == 0 then []
    else
      var last := msgs[|msgs| - 1];
      PromptParts(msgs[..|msgs| - 1]) + (if KnownRole(last.role) then [Line(last)] else [])
  }

  /** The cue every prompt ends with. */
  const AssistantCue: string := "\nAssistant: "

  /** `format_prompt_from_messages` (identical in both servers). */
  function FormatPrompt(msgs: seq<ChatMessage>): (p: string)
    ensures |p| >= |AssistantCue| && p[|p| - |AssistantCue|..] == AssistantCue
  {
    Text.Join(PromptParts(msgs), "\n") + AssistantCue
  }

  /** An empty conversation is the bare cue. */
  lemma EmptyConversationPrompt()
    ensures FormatPrompt([]) == AssistantCue
  {
  }

  /** Messages with any other role contribute nothing. */
  lemma UnknownRolesDropped(msgs: seq<ChatMessage>)
    ensures FormatPrompt(msgs) == FormatPrompt(Kept(msgs))
  {
    KeptIdempotent(msgs);
    assert PromptParts(msgs) == PromptParts(Kept(msgs));
  }

  /** A further known message adds one line after the earlier ones. */
  lemma AppendMessage(msgs: seq<ChatMessage>, m: ChatMessage)
    requires KnownRole(m.role)
    ensures PromptParts(msgs + [m]) == PromptParts(msgs) + [Line(m)]
  {
    assert (msgs + [m])[..|msgs|] == msgs;
  }

  /** The lines of an example conversation: a system and a user message. */
  lemma ExampleParts()
    ensures PromptParts([ChatMessage("system", "be terse"), ChatMessage("user", "hi")])
            == ["System: be terse", "User: hi"]
  {
    var sys := ChatMessage("system", "be terse");
    var user := ChatMessage("user", "hi");
    var none: seq<ChatMessage> := [];
    AppendMessage(none, sys);
    assert none + [sys] == [sys];
    AppendMessage([sys], user);
    assert [sys] + [user] == [sys, user];
    ExampleLines();
  }

  /** The two lines of the example, one label each. */
  lemma ExampleLines()
    ensures Line(ChatMessage("system", "be terse")) == "System: be terse"
    ensures Line(ChatMessage("user", "hi")) == "User: hi"
  {
    assert "System: " + "be terse" == "System: be terse";
    assert "User: " + "hi" == "User: hi";
  }

  /** The prompt of that example conversation. */
  lemma SystemUserExample()
    ensures FormatPrompt([ChatMessage("system", "be terse"), ChatMessage("user", "hi")])
            == "System: be terse\nUser: hi\nAssistant: "
  {
    var msgs := [ChatMessage("system", "be terse"), ChatMessage("user", "hi")];
    var joined := Text.Join(PromptParts(msgs), "\n");
    ExampleParts();
    Text.JoinPair("System: be terse", "User: hi", "\n");
    assert joined == "System: be terse" + "\n" + "User: hi";
    ExampleText();
  }

  /** The example prompt's pieces, glued. */
  lemma ExampleText()
    ensures "System: be terse" + "\n" + "User: hi" + AssistantCue == "System: be terse\nUser: hi\nAssistant: "
  {
  }

  // ---------------------------------------------------------------- options

  /** The integer and list fields of Ollama `options` (absent keys are `None`). */
  datatype Options = Options(topK: Option<int>, numPredict: Option<int>, stop: Option<seq<string>>)

  /** `{}`. */
  const EmptyOptions: Options := Options(None, None, None)

  /** The integer and list fields of LMDeploy's `GenerationConfig`. */
  datatype GenerationConfig = GenerationConfig(topK: int, maxNewTokens: int, stopWords: seq<string>)

  /** `create_generation_config` of the LMDeploy server: `None` without the library, and `None`
      options read as `{}`. */
  function CreateGenerationConfig(available: bool, options: Option<Options>): (r: Option<GenerationConfig>)
    ensures r.Some? <==> available
    ensures r.Some? && options.Some? && options.value.topK.Some? ==> r.value.topK == options.value.topK.value
    ensures r.Some? && (options.None? || options.value.topK.None?) ==> r.value.topK == 40
    ensures r.Some? && options.Some? && options.value.numPredict.Some? ==>
      r.value.maxNewTokens == options.value.numPredict.value
    ensures r.Some? && (options.None? || options.value.numPredict.None?) ==> r.value.maxNewTokens == 512
    ensures r.Some? && options.Some? && options.value.stop.Some? ==> r.value.stopWords == options.value.stop.value
    ensures r.Some? && (options.None? || options.value.stop.None?) ==> r.value.stopWords == []
  {
    if !available then None
    else
      var o := options.GetOr(EmptyOptions);
      Some(GenerationConfig(o.topK.GetOr(40), o.numPredict.GetOr(512), o.stop.GetOr([])))
  }

  /** The integer and list fields of vLLM's `SamplingParams`. */
  datatype SamplingParams = SamplingParams(topK: int, maxTokens: int, stop: seq<string>)

  /** The `AttributeError` of calling `.get` on `None`. */
  const NoneHasNoGet: string := "'NoneType' object has no attribute 'get'"

  /** `create_sampling_params` of the vLLM server: `None` without the library; there is no guard
      for `None` options, which raise. */
  function CreateSamplingParams(available: bool, options: Option<Options>)
    : (r: Result<Option<SamplingParams>, string>)
    ensures !available ==> r == Ok(None)
    ensures available && options.None? ==> r.Err?
    ensures available && options.Some? ==> r.Ok? && r.value.Some?
    ensures r.Ok? && r.value.Some? ==>
      var o := options.value;
      && r.value.value.topK == o.topK.GetOr(40)
      && r.value.value.maxTokens == o.numPredict.GetOr(512)
      && r.value.value.stop == o.stop.GetOr([])
  {
    if !available then Ok(None)
    else match options
      case None => Err(NoneHasNoGet)
      case Some(o) => Ok(Some(SamplingParams(o.topK.GetOr(40), o.numPredict.GetOr(512), o.stop.GetOr([]))))
  }

  /** Given options, both servers map the integer and list fields the same way; they differ only
      on `None` options, which LMDeploy reads as `{}` and vLLM fails on. */
  lemma BackendsAgreeOnOptions(o: Options)
    ensures var g := CreateGenerationConfig(true, Some(o)).value;
            var p := CreateSamplingParams(true, Some(o)).value.value;
            g.topK == p.topK && g.maxNewTokens == p.maxTokens && g.stopWords == p.stop
    ensures CreateGenerationConfig(true, None) == CreateGenerationConfig(true, Some(EmptyOptions))
    ensures CreateSamplingParams(true, None).Err?
  {
  }

  // ---------------------------------------------------------------- stream framing

  /** One newline-delimited `GenerateResponse` object (the fields the framing sets). */
  datatype Record = Record(
    response: string,
    done: bool,
    totalDuration: Option<int>,
    evalCount: Option<nat>,
    evalDuration: Option<int>)

  /** What the manager handed back: no stream, or the fragments it yielded, possibly followed by
      an exception raised while iterating. */
  datatype StreamSource = NoStream | Fragments(chunks: seq<string>, failure: Option<string>)

  function ChunkRecord(chunk: string): Record {
    Record(chunk, false, None, None, None)
  }

  function ChunkRecords(chunks: seq<string>): (rs: seq<Record>)
    ensures |rs| == |chunks|
    ensures forall i :: 0 <= i < |chunks| ==> rs[i] == ChunkRecord(chunks[i])
  {
    if |chunks| == 0 then [] else ChunkRecords(chunks[..|chunks| - 1]) + [ChunkRecord(chunks[|chunks| - 1])]
  }

  /** `generate_stream` of either server, `elapsedMs` being the milliseconds since the request
      started: one `done=false` record per fragment, in order, then exactly one `done=true` record.
      The final record carries the word count of the whole concatenated response; after a failure
      it carries the error text instead, and the earlier records stand. */
  function GenerateStreamRecords(src: StreamSource, elapsedMs: int): (rs: seq<Record>)
    ensures |rs| >= 1 && rs[|rs| - 1].done
    ensures forall i :: 0 <= i < |rs| - 1 ==> !rs[i].done
    ensures src.NoStream? ==> rs == [Record("", true, Some(0), None, None)]
    ensures src.Fragments? ==>
      |rs| == |src.chunks| + 1 && forall i :: 0 <= i < |src.chunks| ==> rs[i] == ChunkRecord(src.chunks[i])
    ensures src.Fragments? && src.failure.None? ==>
      rs[|rs| - 1] == Record("", true, Some(elapsedMs), Some(Text.WordCount(Text.Concat(src.chunks))), Some(elapsedMs))
    ensures src.Fragments? && src.failure.Some? ==>
      rs[|rs| - 1] == Record("Error: " + src.failure.value, true, Some(0), None, None)
  {
    match src
    case NoStream => [Record("", true, Some(0), None, None)]
    case Fragments(chunks, failure) =>
      var last := match failure
        case None => Record("", true, Some(elapsedMs), Some(Text.WordCount(Text.Concat(chunks))), Some(elapsedMs))
        case Some(e) => Record("Error: " + e, true, Some(0), None, None);
      ChunkRecords(chunks) + [last]
  }

  /** What a client reassembles from the intermediate records. */
  function Reassemble(rs: seq<Record>): string {
    if |rs| == 0 then ""
    else Reassemble(rs[..|rs| - 1]) + (if rs[|rs| - 1].done then "" else rs[|rs| - 1].response)
  }

  lemma {:induction false} ReassembleChunks(chunks: seq<string>)
    ensures Reassemble(ChunkRecords(chunks)) == Text.Concat(chunks)
  {
    if |chunks| > 0 {
      var rs := ChunkRecords(chunks);
      assert rs[..|rs| - 1] == ChunkRecords(chunks[..|chunks| - 1]);
      ReassembleChunks(chunks[..|chunks| - 1]);
    }
  }

  /** Round trip: the client gets back exactly the concatenated fragments, with or without a
      failure at the end. */
  lemma ReassembleRoundTrip(chunks: seq<string>, failure: Option<string>, elapsedMs: int)
    ensures Reassemble(GenerateStreamRecords(Fragments(chunks, failure), elapsedMs)) == Text.Concat(chunks)
  {
    var rs := GenerateStreamRecords(Fragments(chunks, failure), elapsedMs);
    assert rs[..|rs| - 1] == ChunkRecords(chunks);
    ReassembleChunks(chunks);
  }

  /** The word count is taken over the concatenation, not per fragment: "Hel" and "lo" make one
      word. */
  lemma EvalCountOverConcatenation()
    ensures GenerateStreamRecords(Fragments(["Hel", "lo"], None), 0)[2].evalCount == Some(1)
  {
    assert Text.Concat(["Hel", "lo"]) == "Hello" by {
      assert ["Hel", "lo"][..1] == ["Hel"];
      assert ["Hel"][..0] == [];
    }
    Text.SolidWordCount("Hello");
  }

  /** One newline-delimited `ChatResponse` object. */
  datatype ChatRecord = ChatRecord(
    message: ChatMessage,
    done: bool,
    totalDuration: Option<int>,
    evalCount: Option<nat>,
    evalDuration: Option<int>)

  function AsChat(r: Record): ChatRecord {
    ChatRecord(ChatMessage("assistant", r.response), r.done, r.totalDuration, r.evalCount, r.evalDuration)
  }

  /** `chat_stream` of either server: the generate framing with each response wrapped in an
      assistant message. */
  function ChatStreamRecords(src: StreamSource, elapsedMs: int): (cs: seq<ChatRecord>)
    ensures var rs := GenerateStreamRecords(src, elapsedMs);
      && |cs| == |rs|
      && forall i :: 0 <= i < |cs| ==>
           cs[i].message.role == "assistant" && cs[i].message.content == rs[i].response &&
           cs[i].done == rs[i].done && cs[i].evalCount == rs[i].evalCount &&
           cs[i].totalDuration == rs[i].totalDuration && cs[i].evalDuration == rs[i].evalDuration
    ensures cs[|cs| - 1].done && (src.NoStream? || src.failure.None? ==> cs[|cs| - 1].message.content == "")
  {
    var rs := GenerateStreamRecords(src, elapsedMs);
    seq(|rs|, i requires 0 <= i < |rs| => AsChat(rs[i]))
  }

  // ---------------------------------------------------------------- admin endpoints

  /** An endpoint's answer: a success body or an HTTP error status. */
  datatype Reply = Success(message: string) | HttpError(status: int)

  datatype Handled = Handled(state: Cache.State, reply: Reply)

  /** `DELETE /api/models/unload/{name}` as written: the 404 raised inside the `try` is caught by
      `except Exception` and re-raised as 500. */
  function UnloadEndpoint(s: Cache.State, name: string): (h: Handled)
    requires Cache.Valid(s)
    ensures Cache.Valid(h.state)
    ensures name in s.models ==>
      h.reply == Success("Model " + name + " unloaded successfully") && name !in h.state.models
    ensures name in s.models ==>
      && h.state.models == s.models - {name} && h.state.configs == s.configs - {name}
      && h.state.lastUsed == s.lastUsed - {name} && h.state.locks == s.locks && h.state.available == s.available
    ensures name !in s.models ==> h.reply == HttpError(500) && h.state == s
  {
    var u := Cache.Remove(s, name);
    var inner := if u.removed then Success("Model " + name + " unloaded successfully") else HttpError(404);
    var outer := if inner.HttpError? then HttpError(500) else inner;
    Handled(u.state, outer)
  }

  /** The concrete input: unloading a model that was never loaded answers 500, not 404. */
  lemma UnknownUnloadIs500(available: bool)
    ensures UnloadEndpoint(Cache.Init(available), "m").reply == HttpError(500)
  {
  }

  /** The evidently intended handler: a missing model is reported as 404. */
  function UnloadEndpointIntended(s: Cache.State, name: string): (h: Handled)
    requires Cache.Valid(s)
    ensures Cache.Valid(h.state)
    ensures name in s.models ==>
      h.reply == Success("Model " + name + " unloaded successfully") && name !in h.state.models
    ensures name in s.models ==>
      && h.state.models == s.models - {name} && h.state.configs == s.configs - {name}
      && h.state.lastUsed == s.lastUsed - {name} && h.state.locks == s.locks && h.state.available == s.available
    ensures name !in s.models ==> h.reply == HttpError(404) && h.state == s
  {
    var u := Cache.Remove(s, name);
    Handled(u.state, if u.removed then Success("Model " + name + " unloaded successfully") else HttpError(404))
  }

  /** The two handlers differ exactly on names that are not loaded. */
  lemma UnloadHandlersDiffer(s: Cache.State, name: string)
    requires Cache.Valid(s)
    ensures UnloadEndpoint(s, name).state == UnloadEndpointIntended(s, name).state
    ensures UnloadEndpoint(s, name).reply == UnloadEndpointIntended(s, name).reply <==> name in s.models
  {
  }

  /** The shutdown handler: unload every name `list_loaded_models` returned, leaving the cache
      empty; the lock set and availability are untouched. */
  method Shutdown(s: Cache.State) returns (r: Cache.State)
    requires Cache.Valid(s)
    ensures Cache.Valid(r)
    ensures r.models == map[] && r.configs == map[] && r.lastUsed == map[] && r.order == []
    ensures r.locks == s.locks && r.available == s.available
  {
    var names := Cache.ListLoaded(s);
    r := s;
    var i := 0;
    while i < |names|
      invariant 0 <= i <= |names|
      invariant Cache.Valid(r) && r.locks == s.locks && r.available == s.available
      invariant forall k :: k in r.models ==> k in names[i..]
    {
      RemoveFirstPending(r, names, i);
      r := Cache.Remove(r, names[i]).state;
      i := i + 1;
    }
    Cache.NothingLoaded(r);
  }

  /** One shutdown step: removing the first pending name leaves only the later ones loaded. */
  lemma RemoveFirstPending(s: Cache.State, names: seq<string>, i: nat)
    requires Cache.Valid(s) && i < |names|
    requires forall k :: k in s.models ==> k in names[i..]
    ensures forall k :: k in Cache.Remove(s, names[i]).state.models ==> k in names[i + 1..]
  {
    assert names[i..] == [names[i]] + names[i + 1..];
  }
}

=== FILE: lmdeploy_manager.dfy ===
/** The LMDeploy `ModelManager`: loading through `pipeline(...)`, unloading with a best-effort
    `close()`, status, single-shot result extraction and the queue bridge of the streaming path. */
module LmdeployManager {
  import opened Wrappers
  import Registry
  import Resolution
  import Cache

  /** `pipeline(model_name, backend_config=engine_config)`, seen from the manager: given the name
      and the resolved engine configuration, a pipeline, `None`, or an exception. */
  type PipelineBuilder = (string, Resolution.TurbomindConfig) -> Cache.Construction

  /** `load_model(model_name, **kwargs)`. */
  function LoadModel(s: Cache.State, name: string, now: int, kw: Resolution.Kwargs, build: PipelineBuilder)
    : (r: Cache.LoadResult)
    requires Cache.Valid(s)
    ensures Cache.Valid(r.state) && s.locks <= r.state.locks
    ensures !s.available ==> r.handle.None? && !r.constructed && r.state == s
    ensures s.available && name in s.models ==>
      r.handle == Some(s.models[name]) && !r.constructed && Cache.OnlyTouched(s, r.state, name, now)
    ensures r.constructed ==>
      var cfg := Resolution.ResolveTurbomind(kw, Registry.GetModelConfig(name), Resolution.LmdeployDefaults());
      (r.handle.Some? <==> build(name, cfg).Built?)
    ensures r.constructed && r.handle.None? ==> Cache.SameEntries(s, r.state)
    ensures r.handle.Some? ==>
      name in r.state.models && r.state.models[name] == r.handle.value && r.state.lastUsed[name] == now
    ensures r.constructed && r.handle.Some? ==> r.state.configs[name] == Registry.GetModelConfig(name)
    // A miss always asks `pipeline(...)`, under the name's lock.
    ensures s.available && name !in s.models ==> r.constructed && r.state.locks == s.locks + {name}
    // A success goes into all three dictionaries; every other entry stays as it was.
    // The pipeline returned and cached is the one `pipeline(...)` built.
    ensures r.constructed && r.handle.Some? ==>
      var cfg := Resolution.ResolveTurbomind(kw, Registry.GetModelConfig(name), Resolution.LmdeployDefaults());
      r.handle == Some(build(name, cfg).handle)
    ensures r.constructed && r.handle.Some? ==>
      Cache.Added(s.(locks := s.locks + {name}), r.state, name, r.handle.value, Registry.GetModelConfig(name), now)
  {
    var spec := Registry.GetModelConfig(name);
    Cache.Load(s, name, now, spec, build(name, Resolution.ResolveTurbomind(kw, spec, Resolution.LmdeployDefaults())))
  }

  /** Whether `pipe.close()` returned or raised; either way the manager goes on. */
  datatype CloseOutcome = Closed | CloseRaised(message: string)

  /** `unload_model`: a present name is removed from all three dictionaries even when `close()`
      raises; an absent name answers false with no change. */
  function UnloadModel(s: Cache.State, name: string, close: CloseOutcome): (u: Cache.Unloaded)
    requires Cache.Valid(s)
    ensures Cache.Valid(u.state)
    ensures u.removed <==> name in s.models
    ensures !u.removed ==> u.state == s
    ensures u.removed ==> name !in u.state.models && name !in u.state.configs && name !in u.state.lastUsed
    // Every other entry, the lock set and the availability flag stay as they were.
    ensures u.removed ==>
      && u.state.models == s.models - {name} && u.state.configs == s.configs - {name}
      && u.state.lastUsed == s.lastUsed - {name} && u.state.locks == s.locks && u.state.available == s.available
    ensures forall k :: k != name ==> (k in u.state.models <==> k in s.models)
    ensures forall k :: k != name && k in u.state.models ==> u.state.models[k] == s.models[k]
  {
    Cache.Remove(s, name)
  }

  /** The state an unload leaves does not depend on how `close()` went. */
  lemma CloseFailureHarmless(s: Cache.State, name: string, message: string)
    requires Cache.Valid(s)
    ensures UnloadModel(s, name, CloseRaised(message)) == UnloadModel(s, name, Closed)
  {
  }

  /** `get_system_status`: the count and the list describe the same set of loaded names. */
  function GetSystemStatus(s: Cache.State): (st: Cache.SystemStatus)
    requires Cache.Valid(s)
    ensures st.available == s.available
    ensures st.loadedCount == |s.models| == |st.modelList|
    ensures forall k :: k in st.modelList <==> k in s.models
    ensures st.supported == Registry.ListSupportedModels()
  {
    Cache.SystemStatus(s.available, |s.models|, Cache.ListLoaded(s), Registry.ListSupportedModels())
  }

  // ---------------------------------------------------------------- generate_text

  /** `pipe([prompt], gen_config=...)`: the texts of the returned results, or an exception. */
  datatype Inference = Results(texts: seq<string>) | InferenceRaised(message: string)

  /** The extraction at the end of `generate_text`: the first result's text, if any. */
  function FirstResult(inf: Inference): (r: Option<string>)
    ensures r.Some? <==> inf.Results? && |inf.texts| > 0
    ensures r.Some? ==> r.value == inf.texts[0]
  {
    match inf
    case Results(texts) => if |texts| > 0 then Some(texts[0]) else None
    case InferenceRaised(_) => None
  }

  /** The state after `generate_text`, and its text. */
  datatype Generated = Generated(state: Cache.State, text: Option<string>)

  /** `generate_text`: load (or reuse) the pipeline, run it, extract the first text. Inference is
      only reached through a loaded handle, and never touches the cache. */
  function GenerateText(s: Cache.State, name: string, now: int, kw: Resolution.Kwargs, build: PipelineBuilder,
                        infer: Cache.Handle -> Inference): (g: Generated)
    requires Cache.Valid(s)
    ensures Cache.Valid(g.state)
    ensures !s.available ==> g == Generated(s, None)
    ensures g.state == LoadModel(s, name, now, kw, build).state
    ensures g.text.Some? ==>
      var h := LoadModel(s, name, now, kw, build).handle;
      h.Some? && FirstResult(infer(h.value)) == g.text
    ensures LoadModel(s, name, now, kw, build).handle.None? ==> g.text.None?
    ensures LoadModel(s, name, now, kw, build).handle.Some? ==>
      g.text == FirstResult(infer(LoadModel(s, name, now, kw, build).handle.value))
  {
    if !s.available then Generated(s, None)
    else
      var loaded := LoadModel(s, name, now, kw, build);
      match loaded.handle
      case None => Generated(loaded.state, None)
      case Some(h) => Generated(loaded.state, FirstResult(infer(h)))
  }

  // ---------------------------------------------------------------- generate_stream

  /** One item of `pipe.stream_infer(...)`: the texts of its result list, or an exception. */
  datatype StreamStep = Step(results: seq<string>) | StepRaised(message: string)

  /** `sync_stream`: the first text of every non-empty output, until the engine raises, which ends
      the stream quietly. */
  function SyncStream(steps: seq<StreamStep>): (chunks: seq<string>)
    ensures |chunks| <= |steps|
    ensures (forall i :: 0 <= i < |steps| ==> steps[i].Step? && |steps[i].results| == 1) ==>
      |chunks| == |steps| && forall i :: 0 <= i < |steps| ==> chunks[i] == steps[i].results[0]
  {
    if |steps| == 0 then []
    else match steps[0]
      case StepRaised(_) => []
      case Step(results) =>
        var rest := SyncStream(steps[1..]);
        assert forall i :: 1 <= i < |steps| ==> steps[1..][i - 1] == steps[i];
        if |results| > 0 then [results[0]] + rest else rest
  }

  /** A message on the hand-off queue between the producer thread and the consumer. */
  datatype QueueItem = Chunk(text: string) | Done | Error(message: string)

  predicate IsMarker(m: QueueItem) {
    !m.Chunk?
  }

  /** `run_stream`: every chunk in order, then `done`, or `error` if iterating raised. Since
      `sync_stream` catches every exception, `failure` is always `None` as the code stands. */
  function RunStream(chunks: seq<string>, failure: Option<string>): (q: seq<QueueItem>)
    ensures |q| == |chunks| + 1
    ensures forall i :: 0 <= i < |chunks| ==> q[i] == Chunk(chunks[i])
    ensures IsMarker(q[|chunks|])
    ensures q[|chunks|].Error? <==> failure.Some?
  {
    if |chunks| == 0 then [if failure.Some? then Error(failure.value) else Done]
    else [Chunk(chunks[0])] + RunStream(chunks[1..], failure)
  }

  /** The consumer loop: yield chunk payloads in queue order, stop at the first `done` or
      `error` (the error is logged, not raised). The result is the payload list of the longest
      chunk-only prefix of the queue. */
  function ConsumeQueue(q: seq<QueueItem>): (out: seq<string>)
    ensures |out| <= |q|
    ensures forall i :: 0 <= i < |out| ==> q[i] == Chunk(out[i])
    ensures |out| < |q| ==> IsMarker(q[|out|])
  {
    if |q| == 0 then []
    else match q[0]
      case Chunk(t) =>
        var rest := ConsumeQueue(q[1..]);
        assert forall i :: 1 <= i < |q| ==> q[1..][i - 1] == q[i];
        [t] + rest
      case _ => []
  }

  /** Round trip through the queue: the consumer yields exactly what the producer put, whether
      the producer finished or failed. */
  lemma {:induction false} QueueRoundTrip(chunks: seq<string>, failure: Option<string>)
    ensures ConsumeQueue(RunStream(chunks, failure)) == chunks
  {
    var out := ConsumeQueue(RunStream(chunks, failure));
    assert |out| == |chunks|;
  }

  /** Nothing after the first marker is consumed. */
  lemma {:induction false} ConsumeStopsAtMarker(q: seq<QueueItem>, more: seq<QueueItem>)
    requires exists i :: 0 <= i < |q| && IsMarker(q[i])
    ensures ConsumeQueue(q + more) == ConsumeQueue(q)
  {
    if IsMarker(q[0]) {
    } else {
      assert (q + more)[1..] == q[1..] + more;
      var i :| 0 <= i < |q| && IsMarker(q[i]);
      assert IsMarker(q[1..][i - 1]);
      ConsumeStopsAtMarker(q[1..], more);
    }
  }

  /** Output already yielded is never revoked: what the consumer made of a prefix of the queue is
      a prefix of what it makes of the whole queue. */
  lemma {:induction false} ConsumeAppendOnly(q: seq<QueueItem>, n: nat)
    requires n <= |q|
    ensures ConsumeQueue(q[..n]) <= ConsumeQueue(q)
  {
    if n > 0 && q[0].Chunk? {
      assert q[..n][1..] == q[1..][..n - 1];
      ConsumeAppendOnly(q[1..], n - 1);
    }
  }

  /** End to end: the fragments the streaming generator yields are those `sync_stream` produced. */
  lemma StreamBridge(steps: seq<StreamStep>, failure: Option<string>)
    ensures ConsumeQueue(RunStream(SyncStream(steps), failure)) == SyncStream(steps)
  {
    QueueRoundTrip(SyncStream(steps), failure);
  }
}

=== FILE: registry.dfy ===
/** The LMDeploy server's model registry and settings defaults (`ModelConfig`, `LMDeployServerConfig`). */
module Registry {
  import opened Wrappers

  /** One registry entry. The two integer fields are optional because the managers read them with
      `dict.get(key, global_default)`; every entry of the LMDeploy table carries both. */
  datatype ModelSpec = ModelSpec(
    maxModelLen: Option<int>,
    tensorParallelSize: Option<int>,
    useCase: string,
    description: string)

  /** A registry in declaration order (Python dicts keep insertion order). */
  type Table = seq<(string, ModelSpec)>

  /** `ModelConfig.SUPPORTED_MODELS`. */
  const SupportedModels: Table := [
    ("microsoft/DialoGPT-medium",
      ModelSpec(Some(1024), Some(1), "chat", "Microsoft DialoGPT medium model for conversation")),
    ("TheBloke/deepseek-coder-1.3b-instruct-AWQ",
      ModelSpec(Some(2048), Some(1), "code", "DeepSeek Coder 1.3B model for code generation")),
    ("meta-llama/Llama-2-7b-chat-hf",
      ModelSpec(Some(4096), Some(1), "chat", "Llama 2 7B chat model")),
    ("mistralai/Mistral-7B-Instruct-v0.1",
      ModelSpec(Some(8192), Some(1), "instruction", "Mistral 7B instruction-following model")),
    ("codellama/CodeLlama-7b-Python-hf",
      ModelSpec(Some(4096), Some(1), "code", "Code Llama 7B Python specialist"))
  ]

  /** No name is declared twice (a dict literal keeps only one entry per key). */
  predicate DistinctNames(t: Table) {
    forall i, j :: 0 <= i < j < |t| ==> t[i].0 != t[j].0
  }

  /** `dict.get(name)`: the entry declared under `name`, if any. */
  function Find(t: Table, name: string): (r: Option<ModelSpec>)
    ensures r.None? <==> forall i :: 0 <= i < |t| ==> t[i].0 != name
    ensures r.Some? ==> exists i :: 0 <= i < |t| && t[i].0 == name && t[i].1 == r.value
    ensures DistinctNames(t) ==> forall i :: 0 <= i < |t| && t[i].0 == name ==> r == Some(t[i].1)
  {
    if |t| == 0 then None
    else if t[0].0 == name then Some(t[0].1)
    else
      var r := Find(t[1..], name);
      assert forall i :: 1 <= i < |t| ==> t[1..][i - 1] == t[i];
      r
  }

  /** The entry synthesised for a name the table does not know. */
  function Fallback(name: string): (r: ModelSpec)
    ensures r.maxModelLen == Some(Defaults.maxModelLen) && r.tensorParallelSize == Some(Defaults.tensorParallelSize)
    ensures r.useCase == "general"
    ensures |r.description| > |name| && r.description[|r.description| - |name|..] == name
  {
    ModelSpec(Some(2048), Some(1), "general", "Custom model: " + name)
  }

  lemma SupportedNamesDistinct()
    ensures DistinctNames(SupportedModels)
  {
  }

  /** `ModelConfig.get_model_config`: the declared entry for a known name, the fallback otherwise.
      Either way the result carries a context length and a parallelism degree. */
  function GetModelConfig(name: string): (r: ModelSpec)
    ensures forall i :: 0 <= i < |SupportedModels| && SupportedModels[i].0 == name ==>
      r == SupportedModels[i].1
    ensures (forall i :: 0 <= i < |SupportedModels| ==> SupportedModels[i].0 != name) ==>
      r == Fallback(name)
    ensures r.maxModelLen.Some? && r.tensorParallelSize.Some?
  {
    SupportedNamesDistinct();
    match Find(SupportedModels, name)
    case Some(spec) => spec
    case None => Fallback(name)
  }

  /** The names of a table, in declaration order (`list(d.keys())`). */
  function Names(t: Table): (r: seq<string>)
    ensures |r| == |t|
    ensures forall i :: 0 <= i < |t| ==> r[i] == t[i].0
  {
    if |t| == 0 then [] else [t[0].0] + Names(t[1..])
  }

  /** `ModelConfig.list_supported_models`: exactly the table's names, in declaration order. */
  function ListSupportedModels(): (r: seq<string>)
    ensures |r| == |SupportedModels|
    ensures forall i :: 0 <= i < |r| ==> r[i] == SupportedModels[i].0
  {
    Names(SupportedModels)
  }

  /** Every declared entry has a positive context length and runs on a single device. */
  lemma TableWellFormed()
    ensures forall i :: 0 <= i < |SupportedModels| ==>
      var spec := SupportedModels[i].1;
      spec.maxModelLen.Some? && spec.maxModelLen.value > 0 && spec.tensorParallelSize == Some(1)
  {
  }

  /** A name is listed exactly when its configuration is a declared one rather than the
      synthesised "general" entry. */
  lemma {:induction false} ListedIffDeclared(name: string)
    ensures name in ListSupportedModels() <==> GetModelConfig(name).useCase != "general"
  {
    var names := ListSupportedModels();
    if name in names {
      var i :| 0 <= i < |names| && names[i] == name;
      assert GetModelConfig(name) == SupportedModels[i].1;
    } else {
      forall i | 0 <= i < |SupportedModels|
        ensures SupportedModels[i].0 != name
      {
        assert names[i] == SupportedModels[i].0;
      }
    }
  }

  /** `LMDeployServerConfig`: the settings the server reads from its environment. */
  datatype ServerSettings = ServerSettings(
    host: string,
    port: nat,
    defaultModel: string,
    maxModelLen: int,
    maxNumSeqs: int,
    tensorParallelSize: int,
    gpuMemoryUtilization: real,
    apiTimeout: nat,
    enableStreaming: bool,
    enableBatching: bool,
    batchSize: nat)

  /** The port Ollama itself listens on. */
  const OllamaPort: nat := 11434

  /** The declared defaults of `LMDeployServerConfig`. */
  const Defaults: ServerSettings := ServerSettings(
    host := "127.0.0.1",
    port := 11435,
    defaultModel := "TheBloke/deepseek-coder-1.3b-instruct-AWQ",
    maxModelLen := 2048,
    maxNumSeqs := 256,
    tensorParallelSize := 1,
    gpuMemoryUtilization := 0.9,
    apiTimeout := 300,
    enableStreaming := true,
    enableBatching := true,
    batchSize := 8)

  /** The defaults hang together: the server sits one port above Ollama, the default model is a
      declared one, and the literals of the synthesised entry for an unknown model equal the declared
      default context length and parallelism degree. */
  lemma DefaultsConsistent(name: string)
    ensures Defaults.port == OllamaPort + 1
    ensures Defaults.defaultModel in ListSupportedModels()
    ensures Fallback(name).maxModelLen == Some(Defaults.maxModelLen)
    ensures Fallback(name).tensorParallelSize == Some(Defaults.tensorParallelSize)
  {
    assert ListSupportedModels()[1] == Defaults.defaultModel;
  }
}

=== FILE: resolution.dfy ===
/** Effective engine configuration: per-call keyword override, then registry entry, then global
    default, resolved field by field, for both backends. */
module Resolution {
  import opened Wrappers
  import Registry

  /** A keyword-argument value. Only integers are inspected; fractions and strings are carried. */
  datatype Value = Int(n: int) | Real(x: real) | Str(s: string)

  /** The `**kwargs` of `load_model`. */
  type Kwargs = map<string, Value>

  /** The global settings the managers fall back on (`config.max_model_len`, ...). */
  datatype GlobalDefaults = GlobalDefaults(
    maxModelLen: int,
    maxNumSeqs: int,
    tensorParallelSize: int,
    gpuMemoryUtilization: real)

  /** The LMDeploy server's global settings, taken from its declared defaults. */
  function LmdeployDefaults(): GlobalDefaults {
    GlobalDefaults(
      Registry.Defaults.maxModelLen,
      Registry.Defaults.maxNumSeqs,
      Registry.Defaults.tensorParallelSize,
      Registry.Defaults.gpuMemoryUtilization)
  }

  /** `kwargs.get(key, default)`. */
  function Get(kw: Kwargs, key: string, default: Value): Value {
    if key in kw then kw[key] else default
  }

  /** `kwargs.get(key, model_config.get(key', global))`: the three tiers in priority order. */
  function ThreeTier(kw: Kwargs, key: string, field: Option<int>, global: int): (v: Value)
    ensures key in kw ==> v == kw[key]
    ensures key !in kw && field.Some? ==> v == Int(field.value)
    ensures key !in kw && field.None? ==> v == Int(global)
  {
    Get(kw, key, Int(field.GetOr(global)))
  }

  // ---------------------------------------------------------------- LMDeploy

  /** The integer-relevant part of the `TurbomindEngineConfig` built by the LMDeploy manager. */
  datatype TurbomindConfig = TurbomindConfig(
    sessionLen: Value,
    maxBatchSize: Value,
    tp: Value,
    cacheMaxEntryCount: Value)

  /** The LMDeploy manager's engine configuration for one load. */
  function ResolveTurbomind(kw: Kwargs, spec: Registry.ModelSpec, g: GlobalDefaults): (c: TurbomindConfig)
    ensures c.sessionLen == ThreeTier(kw, "max_model_len", spec.maxModelLen, g.maxModelLen)
    ensures c.tp == ThreeTier(kw, "tensor_parallel_size", spec.tensorParallelSize, g.tensorParallelSize)
    ensures "max_num_seqs" in kw ==> c.maxBatchSize == kw["max_num_seqs"]
    ensures "max_num_seqs" !in kw ==> c.maxBatchSize == Int(g.maxNumSeqs)
    ensures "cache_max_entry_count" in kw ==> c.cacheMaxEntryCount == kw["cache_max_entry_count"]
    ensures "cache_max_entry_count" !in kw ==> c.cacheMaxEntryCount == Real(0.8)
  {
    TurbomindConfig(
      sessionLen := Get(kw, "max_model_len", Int(spec.maxModelLen.GetOr(g.maxModelLen))),
      maxBatchSize := Get(kw, "max_num_seqs", Int(g.maxNumSeqs)),
      tp := Get(kw, "tensor_parallel_size", Int(spec.tensorParallelSize.GetOr(g.tensorParallelSize))),
      cacheMaxEntryCount := Get(kw, "cache_max_entry_count", Real(0.8)))
  }

  /** Fields resolve independently: a field only depends on its own keyword. The batch size has
      no registry tier at all. */
  lemma TurbomindFieldsIndependent(kw1: Kwargs, kw2: Kwargs, s1: Registry.ModelSpec, s2: Registry.ModelSpec,
                                   g: GlobalDefaults)
    requires s1.maxModelLen == s2.maxModelLen && s1.tensorParallelSize == s2.tensorParallelSize
    ensures Get(kw1, "max_model_len", Int(0)) == Get(kw2, "max_model_len", Int(0)) &&
            ("max_model_len" in kw1 <==> "max_model_len" in kw2) ==>
      ResolveTurbomind(kw1, s1, g).sessionLen == ResolveTurbomind(kw2, s2, g).sessionLen
    ensures Get(kw1, "tensor_parallel_size", Int(0)) == Get(kw2, "tensor_parallel_size", Int(0)) &&
            ("tensor_parallel_size" in kw1 <==> "tensor_parallel_size" in kw2) ==>
      ResolveTurbomind(kw1, s1, g).tp == ResolveTurbomind(kw2, s2, g).tp
    ensures Get(kw1, "max_num_seqs", Int(0)) == Get(kw2, "max_num_seqs", Int(0)) &&
            ("max_num_seqs" in kw1 <==> "max_num_seqs" in kw2) ==>
      ResolveTurbomind(kw1, s1, g).maxBatchSize == ResolveTurbomind(kw2, s2, g).maxBatchSize
    ensures Get(kw1, "cache_max_entry_count", Int(0)) == Get(kw2, "cache_max_entry_count", Int(0)) &&
            ("cache_max_entry_count" in kw1 <==> "cache_max_entry_count" in kw2) ==>
      ResolveTurbomind(kw1, s1, g).cacheMaxEntryCount == ResolveTurbomind(kw2, s2, g).cacheMaxEntryCount
  {
  }

  /** Since every LMDeploy registry answer carries both integer fields, the global-default tier for
      the context length and the parallelism degree is never consulted. */
  lemma LmdeployGlobalTierUnreached(name: string, kw: Kwargs, g1: GlobalDefaults, g2: GlobalDefaults)
    ensures ResolveTurbomind(kw, Registry.GetModelConfig(name), g1).sessionLen ==
            ResolveTurbomind(kw, Registry.GetModelConfig(name), g2).sessionLen
    ensures ResolveTurbomind(kw, Registry.GetModelConfig(name), g1).tp ==
            ResolveTurbomind(kw, Registry.GetModelConfig(name), g2).tp
  {
  }

  // ---------------------------------------------------------------- vLLM

  /** The `AsyncEngineArgs` built by the vLLM manager; `extra` holds the keyword arguments spread
      into the call after the explicit ones. */
  datatype EngineArgs = EngineArgs(
    model: string,
    maxModelLen: Value,
    maxNumSeqs: Value,
    tensorParallelSize: Value,
    gpuMemoryUtilization: Value,
    extra: Kwargs)

  /** The keywords the vLLM manager passes explicitly to `AsyncEngineArgs`. */
  const EngineKeywords: set<string> :=
    {"model", "max_model_len", "max_num_seqs", "tensor_parallel_size", "gpu_memory_utilization"}

  /** The `TypeError` Python raises when a keyword reaches a call twice. */
  const DuplicateKeyword: string := "got multiple values for keyword argument"

  /** Some override names a keyword that is also passed explicitly. */
  predicate Overlaps(kw: Kwargs) {
    !(kw.Keys !! EngineKeywords)
  }

  /** `AsyncEngineArgs(model=..., max_model_len=..., ..., **kwargs)` as written: the explicit
      keywords are resolved through the tiers, then every override is spread in again, so an
      override of any explicit keyword raises. */
  function ResolveEngineArgs(name: string, kw: Kwargs, spec: Registry.ModelSpec, g: GlobalDefaults)
    : (r: Result<EngineArgs, string>)
    ensures r.Err? <==> Overlaps(kw)
    ensures r.Ok? ==> r.value.model == name && r.value.extra == kw
    ensures r.Ok? ==> r.value.maxModelLen == ThreeTier(kw, "max_model_len", spec.maxModelLen, g.maxModelLen)
    ensures r.Ok? ==> r.value.tensorParallelSize ==
                      ThreeTier(kw, "tensor_parallel_size", spec.tensorParallelSize, g.tensorParallelSize)
    ensures r.Ok? ==> r.value.maxNumSeqs == Get(kw, "max_num_seqs", Int(g.maxNumSeqs))
    ensures r.Ok? ==> r.value.gpuMemoryUtilization == Get(kw, "gpu_memory_utilization", Real(g.gpuMemoryUtilization))
  {
    var explicit := EngineArgs(
      model := name,
      maxModelLen := Get(kw, "max_model_len", Int(spec.maxModelLen.GetOr(g.maxModelLen))),
      maxNumSeqs := Get(kw, "max_num_seqs", Int(g.maxNumSeqs)),
      tensorParallelSize := Get(kw, "tensor_parallel_size", Int(spec.tensorParallelSize.GetOr(g.tensorParallelSize))),
      gpuMemoryUtilization := Get(kw, "gpu_memory_utilization", Real(g.gpuMemoryUtilization)),
      extra := kw);
    if Overlaps(kw) then
      Err(DuplicateKeyword)
    else
      Ok(explicit)
  }

  /** As written, the override tier of the vLLM resolution is dead: whenever resolution succeeds,
      its fields are exactly those resolved without any override. */
  lemma VllmOverrideTierUnreachable(name: string, kw: Kwargs, spec: Registry.ModelSpec, g: GlobalDefaults)
    requires ResolveEngineArgs(name, kw, spec, g).Ok?
    ensures var a := ResolveEngineArgs(name, kw, spec, g).value;
            var b := ResolveEngineArgs(name, map[], spec, g).value;
            a.maxModelLen == b.maxModelLen && a.tensorParallelSize == b.tensorParallelSize &&
            a.maxNumSeqs == b.maxNumSeqs && a.gpuMemoryUtilization == b.gpuMemoryUtilization
  {
    assert !Overlaps(map[]);
  }

  /** The concrete input: asking for a 4096-token context makes the load fail. */
  lemma VllmContextOverrideRejected(name: string, spec: Registry.ModelSpec, g: GlobalDefaults)
    ensures ResolveEngineArgs(name, map["max_model_len" := Int(4096)], spec, g).Err?
  {
    assert "max_model_len" in map["max_model_len" := Int(4096)];
  }

  /** The evidently intended vLLM resolution: overrides take priority and are not passed twice. */
  function ResolveEngineArgsIntended(name: string, kw: Kwargs, spec: Registry.ModelSpec, g: GlobalDefaults)
    : (a: EngineArgs)
    ensures a.model == name
    ensures "max_model_len" in kw ==> a.maxModelLen == kw["max_model_len"]
    ensures "max_model_len" !in kw && spec.maxModelLen.Some? ==> a.maxModelLen == Int(spec.maxModelLen.value)
    ensures "max_model_len" !in kw && spec.maxModelLen.None? ==> a.maxModelLen == Int(g.maxModelLen)
    ensures "tensor_parallel_size" in kw ==> a.tensorParallelSize == kw["tensor_parallel_size"]
    ensures "tensor_parallel_size" !in kw && spec.tensorParallelSize.Some? ==>
      a.tensorParallelSize == Int(spec.tensorParallelSize.value)
    ensures "tensor_parallel_size" !in kw && spec.tensorParallelSize.None? ==>
      a.tensorParallelSize == Int(g.tensorParallelSize)
    ensures "max_num_seqs" in kw ==> a.maxNumSeqs == kw["max_num_seqs"]
    ensures "max_num_seqs" !in kw ==> a.maxNumSeqs == Int(g.maxNumSeqs)
    ensures "gpu_memory_utilization" in kw ==> a.gpuMemoryUtilization == kw["gpu_memory_utilization"]
    ensures "gpu_memory_utilization" !in kw ==> a.gpuMemoryUtilization == Real(g.gpuMemoryUtilization)
    ensures a.extra.Keys !! EngineKeywords
    ensures a.extra.Keys <= kw.Keys
    ensures forall k :: k in kw && k !in EngineKeywords ==> k in a.extra && a.extra[k] == kw[k]
  {
    EngineArgs(
      model := name,
      maxModelLen := ThreeTier(kw, "max_model_len", spec.maxModelLen, g.maxModelLen),
      maxNumSeqs := Get(kw, "max_num_seqs", Int(g.maxNumSeqs)),
      tensorParallelSize := ThreeTier(kw, "tensor_parallel_size", spec.tensorParallelSize, g.tensorParallelSize),
      gpuMemoryUtilization := Get(kw, "gpu_memory_utilization", Real(g.gpuMemoryUtilization)),
      extra := kw - EngineKeywords)
  }

  /** Where the code as written succeeds, it agrees with the intended resolution. */
  lemma IntendedAgreesWithoutOverlap(name: string, kw: Kwargs, spec: Registry.ModelSpec, g: GlobalDefaults)
    requires !Overlaps(kw)
    ensures ResolveEngineArgs(name, kw, spec, g) == Ok(ResolveEngineArgsIntended(name, kw, spec, g))
  {
    assert kw - EngineKeywords == kw;
  }
}

=== FILE: text.dfy ===
/** String helpers shared by the gateway: concatenation, joining and the rough word count. */
module Text {

  /** The ASCII characters that Python's argument-less `str.split()` treats as separators:
      space, `\t`, `\n`, `\v`, `\f`, `\r` and the four information separators 0x1C..0x1F. */
  predicate IsSpace(c: char) {
    var n := c as int;
    n == 32 || 9 <= n <= 13 || 28 <= n <= 31
  }

  /** Left-to-right concatenation, the `full_response += chunk` accumulation of a stream. */
  function Concat(parts: seq<string>): (r: string)
    ensures |parts| > 0 ==> parts[0] <= r
    ensures |parts| > 0 ==> |parts[|parts| - 1]| <= |r| && r[|r| - |parts[|parts| - 1]|..] == parts[|parts| - 1]
    ensures (forall i :: 0 <= i < |parts| ==> parts[i] == "") ==> r == ""
  {
    if |parts| == 0 then ""
    else
      var init := parts[..|parts| - 1];
      assert forall i :: 0 <= i < |init| ==> init[i] == parts[i];
      Concat(init) + parts[|parts| - 1]
  }

  /** Concatenation distributes over appending chunk lists. */
  lemma {:induction false} ConcatAppend(a: seq<string>, b: seq<string>)
    ensures Concat(a + b) == Concat(a) + Concat(b)
  {
    if |b| == 0 {
      assert a + b == a;
    } else {
      var b', last := b[..|b| - 1], b[|b| - 1];
      assert (a + b)[..|a + b| - 1] == a + b' && (a + b)[|a + b| - 1] == last;
      ConcatAppend(a, b');
      assert Concat(a + b) == Concat(a + b') + last;
      assert Concat(b) == Concat(b') + last;
      Assoc(Concat(a), Concat(b'), last);
    }
  }

  /** Concatenation regrouped, stated apart so that the step above stays small. */
  lemma Assoc(p: string, q: string, x: string)
    ensures p + q + x == p + (q + x)
  {
  }

  /** Python's `sep.join(parts)`. */
  function Join(parts: seq<string>, sep: string): (r: string)
    ensures |parts| > 0 ==> parts[0] <= r
    ensures |parts| > 0 ==> |parts[|parts| - 1]| <= |r| && r[|r| - |parts[|parts| - 1]|..] == parts[|parts| - 1]
    ensures |parts| > 0 ==> |r| >= (|parts| - 1) * |sep|
  {
    if |parts| == 0 then ""
    else if |parts| == 1 then parts[0]
    else
      var init := parts[..|parts| - 1];
      assert init[0] == parts[0];
      Join(init, sep) + sep + parts[|parts| - 1]
  }

  /** Joining two parts puts the separator between them. */
  lemma JoinPair(a: string, b: string, sep: string)
    ensures Join([a, b], sep) == a + sep + b
  {
    assert [a, b][..1] == [a];
  }

  /** Joining one more part adds a separator and that part. */
  lemma JoinSnoc(a: seq<string>, x: string, sep: string)
    requires |a| > 0
    ensures Join(a + [x], sep) == Join(a, sep) + sep + x
  {
    assert (a + [x])[..|a|] == a;
  }

  /** Joining a concatenation puts one separator between the joins of the halves: every gap between
      neighbouring parts holds exactly the separator. */
  lemma {:induction false} JoinAppend(a: seq<string>, b: seq<string>, sep: string)
    requires |a| > 0 && |b| > 0
    ensures Join(a + b, sep) == Join(a, sep) + sep + Join(b, sep)
  {
    var b', x := b[..|b| - 1], b[|b| - 1];
    assert a + b == (a + b') + [x];
    if |b'| == 0 {
      assert a + b' == a && b == [x];
      JoinSnoc(a, x, sep);
    } else {
      assert b == b' + [x];
      JoinSnoc(a + b', x, sep);
      JoinAppend(a, b', sep);
      JoinSnoc(b', x, sep);
      Regroup(Join(a, sep), sep, Join(b', sep), x);
    }
  }

  /** Concatenation regrouped, stated apart so that the step above stays small. */
  lemma Regroup(p: string, s: string, q: string, x: string)
    ensures p + s + q + s + x == p + s + (q + s + x)
  {
  }

  /** A word of `s` starts at position `i`. */
  predicate StartsWordAt(s: string, i: nat)
    requires i < |s|
  {
    !IsSpace(s[i]) && (i == 0 || IsSpace(s[i - 1]))
  }

  /** `len(s.split())`: the number of maximal runs of non-space characters. */
  function WordCount(s: string): (r: nat)
    ensures r == 0 <==> forall i :: 0 <= i < |s| ==> IsSpace(s[i])
    ensures r <= (|s| + 1) / 2
  {
    if |s| == 0 then 0
    else
      var init := s[..|s| - 1];
      assert forall i :: 0 <= i < |init| ==> init[i] == s[i];
      if StartsWordAt(s, |s| - 1) && |s| > 1 then
        assert init[..|s| - 2] == s[..|s| - 2];
        assert !StartsWordAt(init, |s| - 2);
        assert WordCount(init) == WordCount(s[..|s| - 2]);
        WordCount(init) + 1
      else
        WordCount(init) + (if StartsWordAt(s, |s| - 1) then 1 else 0)
  }

  /** The last word of `a` and the first word of `b` fuse into one word in `a + b`. */
  predicate Glued(a: string, b: string) {
    |a| > 0 && |b| > 0 && !IsSpace(a[|a| - 1]) && !IsSpace(b[0])
  }

  /** Counting the words of a concatenation: the counts add up, except that one word is lost
      when the boundary falls inside a word. */
  lemma {:induction false} WordCountAppend(a: string, b: string)
    ensures WordCount(a + b) == WordCount(a) + WordCount(b) - (if Glued(a, b) then 1 else 0)
  {
    if |b| > 0 {
      var b', c := b[..|b| - 1], b[|b| - 1];
      assert a + b == (a + b') + [c] && b == b' + [c];
      WordCountAppend(a, b');
      WordCountSnoc(a + b', c);
      WordCountSnoc(b', c);
      if |b'| == 0 {
        assert a + b' == a;
      } else {
        assert (a + b')[|a + b'| - 1] == b'[|b'| - 1];
        assert b'[0] == b[0];
      }
    } else {
      assert a + b == a;
    }
  }

  /** One more character starts a word exactly when it is not a separator and follows one (or
      nothing). */
  lemma WordCountSnoc(s: string, c: char)
    ensures WordCount(s + [c]) ==
            WordCount(s) + (if !IsSpace(c) && (|s| == 0 || IsSpace(s[|s| - 1])) then 1 else 0)
  {
    var t := s + [c];
    assert t[..|s|] == s && t[|s|] == c;
    assert |s| > 0 ==> t[|s| - 1] == s[|s| - 1];
    assert StartsWordAt(t, |s|) <==> !IsSpace(c) && (|s| == 0 || IsSpace(s[|s| - 1]));
    assert WordCount(t) == WordCount(t[..|s|]) + (if StartsWordAt(t, |s|) then 1 else 0);
  }

  /** A string without separators is one word, whatever its length. */
  lemma {:induction false} SolidWordCount(s: string)
    requires |s| > 0
    requires forall i :: 0 <= i < |s| ==> !IsSpace(s[i])
    ensures WordCount(s) == 1
  {
    if |s| > 1 {
      SolidWordCount(s[..|s| - 1]);
    } else {
      assert s[..0] == [];
    }
  }
}

=== FILE: vllm_manager.dfy ===
/** The vLLM `ModelManager`: loading through `AsyncLLMEngine.from_engine_args`, unloading,
    status, first-finished extraction and the streaming filter. The vLLM registry and global
    settings are parameters: the vLLM server's `config.py` is not part of this model. */
module VllmManager {
  import opened Wrappers
  import Registry
  import Resolution
  import Cache

  /** `AsyncLLMEngine.from_engine_args(engine_args)`: an engine, or an exception. */
  type EngineBuilder = Resolution.EngineArgs -> Result<Cache.Handle, string>

  /** The outcome of the `try` block inside the lock: building the arguments may already raise. */
  function Construct(name: string, kw: Resolution.Kwargs, spec: Registry.ModelSpec,
                     g: Resolution.GlobalDefaults, build: EngineBuilder): (c: Cache.Construction)
    ensures Resolution.Overlaps(kw) ==> c.Raised?
    ensures c.Built? ==>
      !Resolution.Overlaps(kw) && build(Resolution.ResolveEngineArgs(name, kw, spec, g).value) == Ok(c.handle)
    ensures !c.NoHandle?
    ensures !Resolution.Overlaps(kw) ==>
      var built := build(Resolution.ResolveEngineArgs(name, kw, spec, g).value);
      (c.Built? <==> built.Ok?) && (c.Built? ==> c.handle == built.value)
  {
    match Resolution.ResolveEngineArgs(name, kw, spec, g)
    case Err(m) => Cache.Raised(m)
    case Ok(args) =>
      match build(args)
      case Ok(h) => Cache.Built(h)
      case Err(m) => Cache.Raised(m)
  }

  /** `load_model(model_name, **kwargs)`. */
  function LoadModel(s: Cache.State, name: string, now: int, kw: Resolution.Kwargs,
                     registry: string -> Registry.ModelSpec, g: Resolution.GlobalDefaults, build: EngineBuilder)
    : (r: Cache.LoadResult)
    requires Cache.Valid(s)
    ensures Cache.Valid(r.state) && s.locks <= r.state.locks
    ensures !s.available ==> r.handle.None? && !r.constructed && r.state == s
    ensures s.available && name in s.models ==>
      r.handle == Some(s.models[name]) && !r.constructed && Cache.OnlyTouched(s, r.state, name, now)
    ensures r.handle.Some? ==>
      name in r.state.models && r.state.models[name] == r.handle.value && r.state.lastUsed[name] == now
    ensures r.constructed && r.handle.Some? ==> r.state.configs[name] == registry(name)
    ensures r.constructed && r.handle.None? ==> Cache.SameEntries(s, r.state)
    // An override of an explicitly passed keyword makes every cache miss fail.
    ensures Resolution.Overlaps(kw) && s.available && name !in s.models ==>
      r.handle.None? && Cache.SameEntries(s, r.state)
    // A miss always tries to build, under the name's lock.
    ensures s.available && name !in s.models ==> r.constructed && r.state.locks == s.locks + {name}
    // Without overlapping overrides, a miss whose engine builds caches it in all three dictionaries.
    ensures !Resolution.Overlaps(kw) && s.available && name !in s.models ==>
      var built := build(Resolution.ResolveEngineArgs(name, kw, registry(name), g).value);
      && (r.handle.Some? <==> built.Ok?)
      && (built.Ok? ==> r.handle == Some(built.value))
      && (built.Ok? ==> Cache.Added(s.(locks := s.locks + {name}), r.state, name, built.value, registry(name), now))
  {
    Cache.Load(s, name, now, registry(name), Construct(name, kw, registry(name), g, build))
  }

  /** `unload_model`: false and no change for an absent name; otherwise the name leaves all three
      dictionaries and nothing else changes. */
  function UnloadModel(s: Cache.State, name: string): (u: Cache.Unloaded)
    requires Cache.Valid(s)
    ensures Cache.Valid(u.state)
    ensures u.removed <==> name in s.models
    ensures !u.removed ==> u.state == s
    ensures u.removed ==> name !in u.state.models && name !in u.state.configs && name !in u.state.lastUsed
    // Every other entry, the lock set and the availability flag stay as they were.
    ensures u.removed ==>
      && u.state.models == s.models - {name} && u.state.configs == s.configs - {name}
      && u.state.lastUsed == s.lastUsed - {name} && u.state.locks == s.locks && u.state.available == s.available
    ensures forall k :: k != name ==> (k in u.state.models <==> k in s.models)
    ensures forall k :: k != name && k in u.state.models ==> u.state.models[k] == s.models[k]
  {
    Cache.Remove(s, name)
  }

  /** `get_system_status`, given the vLLM registry's names: the count and the list describe the
      same set of loaded names. */
  function GetSystemStatus(s: Cache.State, supported: seq<string>): (st: Cache.SystemStatus)
    requires Cache.Valid(s)
    ensures st.available == s.available
    ensures st.loadedCount == |s.models| == |st.modelList|
    ensures forall k :: k in st.modelList <==> k in s.models
    ensures st.supported == supported
  {
    Cache.SystemStatus(s.available, |s.models|, Cache.ListLoaded(s), supported)
  }

  // ---------------------------------------------------------------- generate_text

  /** One `RequestOutput` of `engine.generate`: the texts of its completion outputs and its
      `finished` flag. */
  datatype RequestOutput = RequestOutput(texts: seq<string>, finished: bool)

  /** One step of iterating `engine.generate`: an output, or an exception. */
  datatype EngineEvent = Output(output: RequestOutput) | EngineRaised(message: string)

  /** Iteration stops here: the output is finished, or the engine raised. */
  predicate Stops(e: EngineEvent) {
    e.EngineRaised? || e.output.finished
  }

  /** The extraction of `generate_text`: `outputs[0].text` of the first finished output. An
      exception, an empty `outputs` list on that output, or no finished output at all give `None`. */
  function FirstFinished(events: seq<EngineEvent>): (r: Option<string>)
    ensures r.Some? ==>
      exists i :: && 0 <= i < |events| && events[i].Output? && events[i].output.finished
                  && |events[i].output.texts| > 0 && r.value == events[i].output.texts[0]
                  && forall j :: 0 <= j < i ==> !Stops(events[j])
    ensures forall i :: 0 <= i < |events| && Stops(events[i]) && (forall j :: 0 <= j < i ==> !Stops(events[j])) ==>
      (r.Some? <==> events[i].Output? && |events[i].output.texts| > 0)
    ensures (forall i :: 0 <= i < |events| ==> !Stops(events[i])) ==> r.None?
  {
    if |events| == 0 then None
    else match events[0]
      case EngineRaised(_) => None
      case Output(o) =>
        if o.finished then (if |o.texts| > 0 then Some(o.texts[0]) else None)
        else
          var r := FirstFinished(events[1..]);
          assert forall i :: 1 <= i < |events| ==> events[1..][i - 1] == events[i];
          r
  }

  /** Events after the first stopping one are never looked at. */
  lemma {:induction false} FirstFinishedIgnoresRest(events: seq<EngineEvent>, more: seq<EngineEvent>)
    requires exists i :: 0 <= i < |events| && Stops(events[i])
    ensures FirstFinished(events + more) == FirstFinished(events)
  {
    assert (events + more)[0] == events[0];
    if !Stops(events[0]) {
      assert (events + more)[1..] == events[1..] + more;
      var i :| 0 <= i < |events| && Stops(events[i]);
      assert Stops(events[1..][i - 1]);
      FirstFinishedIgnoresRest(events[1..], more);
    }
  }

  // ---------------------------------------------------------------- generate_stream

  /** The non-empty texts, in order. */
  function NonEmpty(texts: seq<string>): (r: seq<string>)
    ensures forall i :: 0 <= i < |r| ==> r[i] != ""
    ensures forall t :: t in r <==> t in texts && t != ""
    ensures |r| <= |texts|
  {
    if |texts| == 0 then []
    else (if texts[0] != "" then [texts[0]] else []) + NonEmpty(texts[1..])
  }

  /** Filtering commutes with concatenation, so the kept texts keep their order and multiplicity. */
  lemma {:induction false} NonEmptyAppend(a: seq<string>, b: seq<string>)
    ensures NonEmpty(a + b) == NonEmpty(a) + NonEmpty(b)
  {
    if |a| == 0 {
      assert a + b == b;
    } else {
      var head := if a[0] != "" then [a[0]] else [];
      assert (a + b)[0] == a[0] && (a + b)[1..] == a[1..] + b;
      NonEmptyAppend(a[1..], b);
      assert NonEmpty(a + b) == head + NonEmpty(a[1..] + b);
      assert NonEmpty(a) == head + NonEmpty(a[1..]);
    }
  }

  /** `stream_generator`: every non-empty text of every output, in order, up to and including the
      first finished output. */
  function StreamFilter(outs: seq<RequestOutput>): (r: seq<string>)
    ensures forall i :: 0 <= i < |r| ==> r[i] != ""
  {
    if |outs| == 0 then []
    else NonEmpty(outs[0].texts) + (if outs[0].finished then [] else StreamFilter(outs[1..]))
  }

  /** Nothing is yielded after the first finished output. */
  lemma {:induction false} FilterStopsAtFinished(outs: seq<RequestOutput>, more: seq<RequestOutput>)
    requires exists i :: 0 <= i < |outs| && outs[i].finished
    ensures StreamFilter(outs + more) == StreamFilter(outs)
  {
    assert (outs + more)[0] == outs[0];
    if !outs[0].finished {
      assert (outs + more)[1..] == outs[1..] + more;
      var i :| 0 <= i < |outs| && outs[i].finished;
      assert outs[1..][i - 1].finished;
      FilterStopsAtFinished(outs[1..], more);
    }
  }

  /** Before a finished output, the filter works output by output, in order. */
  lemma {:induction false} FilterAppend(outs: seq<RequestOutput>, more: seq<RequestOutput>)
    requires forall i :: 0 <= i < |outs| ==> !outs[i].finished
    ensures StreamFilter(outs + more) == StreamFilter(outs) + StreamFilter(more)
  {
    if |outs| == 0 {
      assert outs + more == more;
    } else {
      assert (outs + more)[0] == outs[0];
      assert (outs + more)[1..] == outs[1..] + more;
      FilterAppend(outs[1..], more);
    }
  }

  /** A single output contributes exactly its non-empty texts. */
  lemma FilterSingle(o: RequestOutput)
    ensures StreamFilter([o]) == NonEmpty(o.texts)
  {
    assert [o][1..] == [];
  }
}

=== FILE: wrappers.dfy ===
/** Option and Result values standing in for Python's `None` returns and raised exceptions. */
module Wrappers {

  /** `None` or a value, as returned by the many `Optional[...]` functions of the servers. */
  datatype Option<+T> = None | Some(value: T) {

    /** The value, or `default` when there is none (Python's `x if x is not None else default`). */
    function GetOr(default: T): T {
      match this
      case Some(v) => v
      case None => default
    }
  }

  /** A value, or the exception that was raised instead of producing it. */
  datatype Result<+T, +E> = Ok(value: T) | Err(error: E)
}
